=== FILE: README.md ===
# essa core in Dafny

A Dafny model of the core of essa, a 2D gravity simulator, with proofs of what that core promises.
It covers three parts:

- **Bodies** (`src/Object.cpp`). A body is built with a density derived from mass and radius. It
  pulls on other bodies with the Newtonian force G·m1·m2/d². In `Object::update` it scans the other
  bodies: it either absorbs the first one it overlaps, or just stops at it when collisions are
  disabled. It then takes a semi-implicit Euler step and pushes its new position onto a bounded
  trail. The draw path keeps apogee/perigee watermarks against the most massive body.
- **World** (`src/World.cpp`). An ordered list of bodies with a cached "most massive" slot, where
  ties keep the earlier body. It also has a day counter and the signed multi-step update, which
  runs every body's `update_forces` and then every body's `update`. Further members are lookup by
  name, the fresh clone used for forward simulation, and the seconds-per-tick attribute that the
  scripting layer reads and writes.
- **File explorer** (`src/gui/FileExplorer.cpp`). `FileModel::file_type`, the find-box filter with
  its four `*` cases, and `update_content`'s rows and paths with their two sort comparators.

Modules, one per component: `Wrappers` (Option), `Vectors` (the 2D vector and an uninterpreted
`Math` record holding sqrt/log10/atan2/cos/sin), `Bodies`, `BodyUpdate` (the scan of
`Object::update`), `Worlds`, `Text` (the `std::string` operations used), `FileTypes`, `NameFilter`,
`Sorting` (`std::sort` as insertion sort with its contract) and `Listing`.

Notes on the modelling choices:

- Doubles are reals.
- `G`, `TIMESTAMP`, `World::collisions` and the `<cmath>` functions are fields of a `Physics`
  value that is passed in.
- Inside `Object::update`, `this` is the slot `self` of the list.
- `World` is generic in its body type. Its per-body operations (`gravity_factor`, name, clone,
  `update_forces`, `update`) are parameters, and the two phases are stated as a log of the calls
  made.

Behaviours of the code a reader might not expect; the model follows the code:

- The extrema update has no "skip when this is the reference body" guard (`src/Object.cpp:150-160`).
  The reference body is observed against itself at distance 0, which sets its perigee to 0.
- With `tres == 0` the trail still keeps one position (`src/Object.cpp:103-106`): push, then pop
  once if longer than `tres`. So, while no merge replaces the trail, it holds `max(tres, 1)`
  positions, not at most `tres`.
- A lighter body that absorbs a heavier one adopts its trail (`src/Object.cpp:72`) but keeps its own
  `tres`. Each push pops at most once, so an adopted trail longer than `tres` keeps its length for
  good (`Bodies.AdoptedTrailKeepsLength`).
- A negative step count passes `reverse` to every `update_forces` call (`src/World.cpp:38`). It does
  not only run the clock backwards. What `update_forces` does with the flag is in `Object.hpp`,
  which is not part of this model.
- The code never reaches the force of a coincident pair. Two bodies at distance 0 always overlap,
  because radii are positive. So `Attraction` is only evaluated at a positive distance, and the
  model proves that rather than failing on it.

## Model

| member | source | states |
|---|---|---|
| Bodies.NewBody | src/Object.cpp:13-33 | the areal density satisfies density·π·r² = mass, the trail holds exactly the start position, every argument is stored as given, and positive mass and radius give a valid body |
| Bodies.Strength | src/Object.cpp:39 | the force magnitude f satisfies f·d² = G·m1·m2 for the distance d between the centres |
| Bodies.Attraction | src/Object.cpp:35-43 | the pull of one body on another: magnitude `Strength` along the atan2 angle of the separation; `AttractionMagnitude` states its length |
| Bodies.AttractionMagnitude | src/Object.cpp:35-43 | when cos²+sin²=1, the attraction vector's length is G·m1·m2/d² whatever the separation angle |
| Bodies.ToByte | src/Object.cpp:76-79 | converting a blended channel back to a byte truncates: an in-range value v gives the byte c with c ≤ v < c+1 |
| Bodies.BlendColor | src/Object.cpp:68-79 | each channel is the log10-weighted blend of the two colours, converted back to a byte; `BlendSameColor` states that blending a colour with itself is the identity |
| Bodies.BlendSameColor | src/Object.cpp:75-79 | the log10-weighted colour blend of a colour with itself gives that colour back, whatever the masses |
| Bodies.Absorb | src/Object.cpp:68-86 | the merge before its radius: the masses add, momentum is conserved in x and y, the density is mass-weighted, the colour is the log10-weighted blend, and the partner's name and trail are taken exactly when the body was strictly lighter. Position, radius, trail resolution and watermarks are kept, with positive mass and density and a non-empty trail |
| Bodies.Merge | src/Object.cpp:68-89 | the merge adds the masses and conserves momentum in x and y. It mass-weights the density, blends the colour by the log10 weights and takes the radius of lines 88-89. The survivor takes the partner's name and trail exactly when it was strictly lighter. It keeps its own position, trail resolution and watermarks, has positive mass and density and a non-empty trail, and is valid when square roots of positive numbers are positive |
| Bodies.MergeOverstatesDensity | src/Object.cpp:85-89 | with exact square roots, the merged body has density·π·r² = mass + π·r_old², so its disc is larger than its mass and density allow |
| Bodies.IntendedMerge | src/Object.cpp:85-89 | the corrected merge: the same body as `Merge` except for the radius, which is √(mass / density / π) |
| Bodies.IntendedMergeKeepsDensityMatch | src/Object.cpp:85-89 | with exact square roots, the corrected merge again has density·π·r² = mass |
| Bodies.MergedRadiusAsWritten | src/Object.cpp:88-89 | the radius from the area total mass / density + π·r_old² / density; `MergedRadiusAsWrittenOverstates` states the excess |
| Bodies.MergedRadiusAsWrittenOverstates | src/Object.cpp:88-89 | as written, the merged disc has density·π·r² = mass + π·r_old², so it is larger than its mass and density allow |
| Bodies.MergedRadiusAsWrittenExample | src/Object.cpp:88-89 | two equal unit-radius bodies of mass π (density 1) give a merged r² of 3 instead of 2 |
| Bodies.MergedRadiusMatchesDensity | src/Object.cpp:88-89 | the corrected area (total mass / merged density) gives density·π·r² = mass |
| Bodies.PushTrail | src/Object.cpp:103-106 | after recording p, the trail is the newest part of old trail + [p]. It grows by one until it exceeds `tres`, then keeps its length, and it ends in p |
| Bodies.PushKeepsNewest | src/Object.cpp:103-106 | one push keeps the trail equal to the newest max(tres,1) positions of the whole history |
| Bodies.TrailIsNewestWindow | src/Object.cpp:103-106 | over any run of pushes starting from a window of the history (that is, while no merge replaces the trail), the trail is exactly the newest max(tres,1) positions visited, oldest first |
| Bodies.LongTrailKeepsLength | src/Object.cpp:103-106 | a trail longer than `tres` keeps its length over any run of pushes, because each push pops at most once |
| Bodies.AdoptedTrailKeepsLength | src/Object.cpp:70-73 | a lighter body that adopts a partner's trail longer than its own `tres` keeps that longer trail length for every later tick |
| Bodies.Integrate | src/Object.cpp:98-100 | the velocity change times the mass equals force·dt (impulse). The displacement is the new velocity times dt (semi-implicit). The trail records the new position, and no other field changes |
| Bodies.Observe | src/Object.cpp:150-160 | the apogee never decreases and is at least the observed distance; the perigee never increases and is at most it. Each watermark's speed changes exactly when that watermark moves |
| Bodies.ObserveFrom | src/Object.cpp:150-160 | observing against the reference body bounds its current distance between perigee and apogee, and changes nothing but the watermarks |
| Bodies.Watermarks | src/Object.cpp:150-160 | after any run of observations, every observed distance lies between the perigee and the apogee, and neither watermark has moved the wrong way |
| Vectors.DistanceSymmetric | src/Object.cpp:60 | the centre distance of two bodies does not depend on which one it is measured from |
| BodyUpdate.FirstOverlap | src/Object.cpp:58-64 | the partner found is the first slot other than `self` whose disc overlaps, and none overlaps before it; with no result, no partner overlaps |
| BodyUpdate.RemoveAt | src/Object.cpp:91 | removing the partner keeps every other body in its original relative order |
| BodyUpdate.Pull | src/Object.cpp:57-95 | minus the sum of the attractions of the partners in a clear prefix of the list; `PullDependsOnScanned` states that only that prefix matters |
| BodyUpdate.Updated | src/Object.cpp:56-109 | the list after one body's update, defined from the first overlap and the pull before it; `UpdatedKeepsOthers`, `UpdatedSurvivor` and `UpdatedValid` state what it keeps |
| BodyUpdate.Update | src/Object.cpp:56-109 | the scan loop equals the reference `Updated`. It sums minus the attraction of every partner before the first overlap, merges (with the radius as written) and removes that partner only when collisions are on, and reports the absorbed slot exactly then |
| BodyUpdate.UpdatedKeepsOthers | src/Object.cpp:91-92 | at most one partner disappears (exactly when collisions are on and one overlaps), and every other body is unchanged at its shifted slot |
| BodyUpdate.UpdatedSurvivor | src/Object.cpp:68-106 | the updated body has the combined mass after an absorption and its own otherwise. It carries the heavier partner's name (its own on ties), and its trail ends at its new position |
| BodyUpdate.UpdatedValid | src/Object.cpp:81-106 | when square roots of positive numbers are positive, every body of the updated list again has positive mass, radius and density and a non-empty trail, so updates can be chained |
| BodyUpdate.PullDependsOnScanned | src/Object.cpp:58-95 | the accumulated force depends only on the partners scanned so far |
| BodyUpdate.LaterPartnersIgnored | src/Object.cpp:62-64 | with collisions off the scan stops at the first overlap: partners after it do not change the updated body, and no body is removed |
| BodyUpdate.FirstOverlapAgrees | src/Object.cpp:58-64 | an overlapping partner preceded only by non-overlapping ones is the one the scan stops at |
| Worlds.NewWorld | src/World.cpp:18-19 | a new world is empty, has no cached most massive body and starts at year 1990.3, with a day count of 0 assumed (see Left out) |
| Worlds.AddObject | src/World.cpp:21-26 | the object is appended. The cache moves to it exactly when the cache was empty or the object's gravity factor is strictly greater, and nothing else changes |
| Worlds.AddObjectKeepsHeaviest | src/World.cpp:21-26 | adding keeps the cache on the first body of maximal gravity factor, so ties keep the earlier body |
| Worlds.AddAllKeepsHeaviest | src/World.cpp:67-68 | adding objects one by one keeps the cache on the first heaviest body |
| Worlds.FirstHeaviestUnique | src/World.cpp:22 | the first heaviest slot is unique, so the cache is determined by the list |
| Worlds.CloneForForwardSimulation | src/World.cpp:64-69 | the clone holds the clone of every object in order, shares the view, and restarts the date and seconds-per-tick |
| Worlds.CloneRecomputesHeaviest | src/World.cpp:64-69 | the clone's cache designates its first heaviest body, and the same slot as the original's when cloning keeps gravity factors |
| Worlds.Sweep | src/World.cpp:37-41 | a pass over the list calls each slot once, in list order. Each slot j gets the result of its call on the list as it stands at its turn: the results already written for the slots before j, and the untouched objects from j on. Slots before the start are left alone |
| Worlds.TickCallsPhased | src/World.cpp:37-41 | within one tick every body gets its forces call before any body gets its motion call, each exactly once, with the given flag and speed |
| Worlds.Tick | src/World.cpp:31-42 | one iteration makes exactly the phased call sequence and keeps the number of bodies |
| Worlds.TickSeesForces | src/World.cpp:37-41 | within one tick, each forces call sees the earlier forces results and the untouched later objects, and each motion call sees the earlier motion results and every forces result from its own slot on |
| Worlds.Update | src/World.cpp:28-43 | for a non-zero step count and a world whose bodies have a view to read the speed from, \|steps\| ticks run, and the day count moves by exactly `steps`. The calls are \|steps\| copies of one phased tick, every forces call carries reverse = (steps < 0), and nothing but the bodies and the date changes |
| Worlds.RepeatKeepsFlag | src/World.cpp:30-38 | repeating ticks never changes the reverse flag passed to the forces calls |
| Worlds.GetObjectByName | src/World.cpp:56-62 | the result is the first body with that name, and there is no result exactly when no body has it |
| Worlds.SimulationSecondsPerTick | src/World.cpp:92-95 | the getter reads the stored value; `SetSimulationSecondsPerTick` states that it returns what was set |
| Worlds.SetSimulationSecondsPerTick | src/World.cpp:97-101 | the setter always succeeds, a later get returns the value set, and nothing else changes |
| Text.Substr | src/gui/FileExplorer.cpp:181-192 | `substr(pos, count)` is the slice from `pos` holding min(count, remaining) characters |
| Text.LessTotal | src/gui/FileExplorer.cpp:70 | string `<` is a total order: exactly one of equal, less or greater holds |
| Text.LessTransitive | src/gui/FileExplorer.cpp:70 | string `<` is transitive |
| FileTypes.Filename | src/gui/FileExplorer.cpp:96 | the file name is the longest '/'-free suffix of the path |
| FileTypes.Extension | src/gui/FileExplorer.cpp:109 | the extension is the suffix from the last '.' when that dot is not the first character. It is empty exactly for "." and "..", and for names with no dot after the first character |
| FileTypes.FileType | src/gui/FileExplorer.cpp:94-97 | a file named CMakeLists.txt is a "CMake project" in any directory, before the table is consulted |
| FileTypes.Join | src/gui/FileExplorer.cpp:46 | `dir / name` as `std::filesystem::path` forms an entry's path: a '/' is inserted unless the directory is empty or already ends in one |
| FileTypes.FilenameOfJoin | src/gui/FileExplorer.cpp:96 | the file name of any directory joined with a '/'-free name is that name |
| FileTypes.FileTypeOfJoin | src/gui/FileExplorer.cpp:94-117 | the type of an entry depends only on its own name, not on the directory it is listed in |
| FileTypes.LookupKey | src/gui/FileExplorer.cpp:109-113 | the table key: the extension, or the whole name of a dot-file; `LookupKeyOfExtension` states it per stem and extension |
| FileTypes.LookupKeyOfExtension | src/gui/FileExplorer.cpp:109-113 | for a stem followed by one dotted extension, the lookup key is that extension; with an empty stem it is the dot-file name itself |
| FileTypes.FileTypeByExtension | src/gui/FileExplorer.cpp:99-117 | a known extension maps to its table name (".py" to "Python script"). An unknown one gives the extension followed by " file", and a dot-file like ".gitignore" gives ".gitignore file" |
| FileTypes.FileTypeWithoutDot | src/gui/FileExplorer.cpp:114-116 | a name without any '.', in any directory, has type " file" |
| FileTypes.CMakeListsIsProject | src/gui/FileExplorer.cpp:96-97 | in any directory, the special case wins over the ".txt" table entry |
| NameFilter.Accepts | src/gui/FileExplorer.cpp:175-197 | the find-box condition as written, in its four star cases; `PlainPattern`, `TrailingStar`, `LeadingStar` and `LoneStar` state what each keeps |
| NameFilter.WindowMatches | src/gui/FileExplorer.cpp:185-186 | a window `substr(i, min(i+size-1, len))` equals the rest of the pattern only at i = 0 as a prefix, or where the rest ends exactly at the end of the name |
| NameFilter.ScanMatches | src/gui/FileExplorer.cpp:185-189 | the scan from any start accepts exactly at a prefix match (from 0) or at a proper suffix match |
| NameFilter.PlainPattern | src/gui/FileExplorer.cpp:180-181 | a pattern with no star at either end keeps exactly the names it prefixes |
| NameFilter.TrailingStar | src/gui/FileExplorer.cpp:182-183 | a pattern with only a trailing star keeps exactly the names that start with the pattern minus its star |
| NameFilter.LeadingStar | src/gui/FileExplorer.cpp:184-196 | a leading star keeps exactly the non-empty names that start with the rest of the pattern, or end with it while being longer |
| NameFilter.LeadingStarKeepsPrefix | src/gui/FileExplorer.cpp:184-189 | a leading-star pattern keeps every name that starts with the rest of the pattern |
| NameFilter.LoneStar | src/gui/FileExplorer.cpp:190-196 | the pattern "*" keeps exactly the non-empty names |
| NameFilter.BothStarsNeedLiteralStar | src/gui/FileExplorer.cpp:190-196 | as written, a pattern "*x*" keeps no name that has no '*' in it |
| NameFilter.InnerPatternRejected | src/gui/FileExplorer.cpp:190-196 | as written, "*b*" rejects "abc" |
| NameFilter.LeadingStarMissesInterior | src/gui/FileExplorer.cpp:184-189 | as written, "*b" rejects "abc" |
| NameFilter.ScanForContains | src/gui/FileExplorer.cpp:185-192 | a scan with windows as long as the searched text accepts exactly when the text occurs in a non-empty name |
| NameFilter.AcceptsIntended | src/gui/FileExplorer.cpp:184-196 | the corrected condition: a leading star searches for the text between the stars; `IntendedLeadingStar` states what it keeps |
| NameFilter.IntendedLeadingStar | src/gui/FileExplorer.cpp:184-196 | the corrected filter keeps exactly the non-empty names containing the text between the stars |
| NameFilter.IntendedKeepsInterior | src/gui/FileExplorer.cpp:184-196 | the corrected filter keeps "abc" for both "*b*" and "*b" |
| Listing.RowOf | src/gui/FileExplorer.cpp:55-61 | a directory row has an empty size and type "Directory". Any other row has its size and the file type of the entry's path `dir / name`, and both keep the entry's name and time |
| Listing.Kept | src/gui/FileExplorer.cpp:46-50 | an entry is listed exactly when it exists and the condition accepts its file name, and as many times as the listing has it |
| Listing.RowBefore | src/gui/FileExplorer.cpp:68-78 | the row comparator as written; `RowBeforeByKey` states its key order |
| Listing.EntryBefore | src/gui/FileExplorer.cpp:80-91 | the path comparator as written; `EntryBeforeByKey` states its key order |
| Listing.RowBeforeByKey | src/gui/FileExplorer.cpp:68-78 | the row comparator puts rows with an empty size column first and orders rows on the same side by name |
| Listing.EntryBeforeByKey | src/gui/FileExplorer.cpp:80-91 | the path comparator puts directories first and orders each group by name |
| Listing.ComparatorsAreStrict | src/gui/FileExplorer.cpp:68-91 | both comparators are strict weak orderings, as `std::sort` requires: irreflexive, transitive, and with transitive incomparability |
| Listing.UpdateContent | src/gui/FileExplorer.cpp:42-92 | there are as many rows as paths, one per kept entry |
| Listing.UpdateContentSorted | src/gui/FileExplorer.cpp:68-91 | the rows are a sorted permutation of the kept entries' rows, and the paths are those of a sorted permutation of the kept entries |
| Listing.RowOrderIsEntryOrder | src/gui/FileExplorer.cpp:57-91 | when every regular file shows a non-empty size, the row order on rows is the path order on their entries |
| Listing.RowsMatchPaths | src/gui/FileExplorer.cpp:42-91 | path i is the listed directory joined with row i's name, so clicking a row opens that row's own path |
| Sorting.SortBy | src/gui/FileExplorer.cpp:68-91 | `std::sort` as insertion sort: the result is a permutation of the input of the same length; `SortBySorted` states that it is sorted |
| Sorting.SortBySorted | src/gui/FileExplorer.cpp:68-91 | sorting under a strict order gives a permutation in which no element is before an earlier one |
| Sorting.SortMap | src/gui/FileExplorer.cpp:68-91 | sorting commutes with a map that carries one comparator to the other |

## Left out

- Strings are sequences of `char`, while `std::string`'s `<`, `substr` and `size` work on bytes.
  The two agree for ASCII file names; multi-byte UTF-8 names are not modelled byte by byte.
- The `std::cout` line logging each merge in `Object::update`: output only.
- Rendering, GUI widgets, fonts, the focused-body text panel, `hover`, `World::draw` and the
  Python bindings' argument parsing: presentation and I/O, not state changes.
- `World::object_count`: a global counter of constructed objects with no effect on the simulation.
- Filesystem access in `update_content` and `open_path`: the listing is an abstract sequence of
  entries. Each entry gives its name, whether it is a directory, whether it exists, its formatted
  size (`Util::unit_display`, which is not part of this model) and its formatted time
  (`asctime`/`localtime`, a clock).
- The create-file and create-folder callbacks: they write to the filesystem and then re-list.
- sqrt, log10, atan2, cos and sin are uninterpreted. Lemmas that need sqrt(x)² = x or cos²+sin² = 1
  take it as a hypothesis. IEEE rounding, infinities and NaN are not modelled.
- Bodies.Attraction: only the magnitude is proved. The direction is cos/sin of the atan2 angle and
  is left uninterpreted.
- BodyUpdate.Update: requires every body valid (positive mass, radius and density, non-empty
  trail). Bodies outside that domain are not modelled, although the code does not reject them; some
  of them (a zero mass or density) make it divide by zero.
- BodyUpdate.Update: `object_list.remove(object)` is taken to remove exactly the absorbed partner.
  `Object::operator==` is in `Object.hpp`, which is not part of this model.
- Bodies.ToByte: the wrap-around modulo 256 for out-of-range blends is an assumption about the
  target (C++ leaves it undefined). If log10 m1 + log10 m2 = 0, that is whenever m1·m2 = 1, the
  code divides by zero and gets infinite or NaN weights; the model keeps the survivor's colour.
- Bodies.Merge: the merged radius is positive only under the hypothesis that the square root of a
  positive number is positive, because sqrt is uninterpreted.
- Bodies.NewBody: the initial watermarks (apogee 0, perigee +∞, both speeds 0) are member
  initialisers in `Object.hpp`, which is not part of this model; they are assumed.
- Worlds.Update: the bodies' `update_forces(reverse)` and `update(speed)` are parameters. They are
  in `Object.hpp` and `Object.cpp` of a newer API than the `Object::update(list)` in `src/Object.cpp`. The model
  states the order and arguments of the calls, not their physics. Merges are not modelled at the
  `World` level.
- Worlds.Update: `std::abs(steps)` on a 32-bit int is not modelled for INT_MIN.
- Worlds.NewWorld: a new world is assumed to have no view (the default of `m_simulation_view` in
  `World.hpp`) and a day count of 0 (what `Date(1990.3)` sets is in `Date.hpp`). The default
  seconds-per-tick and `Date`'s year arithmetic are in those headers too, which are not part of this
  model. The default is a parameter, and the date is the starting year with a day counter.
- Worlds.CloneForForwardSimulation: each body's clone is a parameter. The clone shares only the
  view. `m_simulation_seconds_per_tick` starts at its default, as a fresh `World()` does.
- Listing.EntryBefore: `std::filesystem::path` `<` compares element by element. All listed paths
  share their parent directory, so it is modelled as the order of the names.
- Sorting.SortBy: `std::sort` is unstable. The model sorts by insertion and proves the `std::sort`
  contract (sorted, permutation). The result is unique when names are unique, as in one directory.
- Listing.RowsMatchPaths: requires that every regular file shows a non-empty size text.
- NameFilter.Accepts: requires a non-empty pattern. The empty pattern reads `content[size - 1]`
  out of bounds.

## Findings

| source | as written | input that shows it | evidently intended | confidence | as-written member | corrected member |
|---|---|---|---|---|---|---|
| src/Object.cpp:88-89 | the merged area is total mass / merged density + π·r_old² / merged density (the second term is area over density, not an area) | two bodies of mass π and radius 1 (density 1) merge to mass 2π at density 1; the radius becomes √3 instead of √2 | the area the new mass and density determine, mass / density, so that density·π·r² = mass still holds | medium, not executed | Bodies.MergeOverstatesDensity | Bodies.IntendedMergeKeepsDensityMatch |
| src/gui/FileExplorer.cpp:190-196 | with stars at both ends, windows are compared against `content.substr(1, size - 1)`, which still ends in '*' | pattern "*b*" and name "abc": rejected | keep the names containing the text between the stars | high, not executed | NameFilter.InnerPatternRejected | NameFilter.IntendedLeadingStar |
| src/gui/FileExplorer.cpp:184-189 | the window is `substr(i, min(i + size - 1, len))`: an end position is passed as a count, so windows starting after 0 are too long unless they reach the end of the name | pattern "*b" and name "abc": rejected | windows as long as the searched text, keeping the names that contain it | medium, not executed | NameFilter.LeadingStarMissesInterior | NameFilter.IntendedLeadingStar |

=== FILE: bodies.dfy ===
/**
  One gravitating body (`Object` in src/Object.cpp): its state, its construction, the merge that
  absorbs a colliding partner, the semi-implicit Euler step with its bounded trail, and the
  apogee/perigee watermarks kept against the reference body.
 */
module Bodies {
  import opened Vectors

  /** An `sf::Uint8` colour channel. */
  type Byte = x: int | 0 <= x < 256

  datatype Color = Color(r: Byte, g: Byte, b: Byte, a: Byte)

  /** A distance that may still be +infinity, which is where the perigee starts. */
  datatype Reach = Infinite | Finite(value: real)

  /** `a` is no farther than `b`, with +infinity above every real. */
  predicate NoFarther(a: Reach, b: Reach) {
    b.Infinite? || (a.Finite? && a.value <= b.value)
  }

  /** Farthest and nearest observed distance from the reference body, and the speed at each. */
  datatype Extrema = Extrema(apogee: real, perigee: Reach, apogeeSpeed: real, perigeeSpeed: real)

  /** The watermarks of a body that has never been observed. */
  const Unobserved: Extrema := Extrema(0.0, Infinite, 0.0, 0.0)

  datatype Body = Body(
    mass: real,
    radius: real,
    density: real,
    pos: Vector,
    vel: Vector,
    color: Color,
    name: string,
    tres: nat,               // trail resolution: how many positions the trail keeps
    trail: seq<Vector>,      // oldest position first
    extrema: Extrema)

  /** The global configuration the engine reads: G, TIMESTAMP, World::collisions and <cmath>. */
  datatype Physics = Physics(g: real, timestep: real, collisions: bool, math: Math)

  /** What every live body satisfies: positive mass, radius and density, and a non-empty trail. */
  predicate Valid(b: Body) {
    b.mass > 0.0 && b.radius > 0.0 && b.density > 0.0 && |b.trail| > 0
  }

  predicate AllValid(bodies: seq<Body>) {
    forall i :: 0 <= i < |bodies| ==> Valid(bodies[i])
  }

  /** The fraction `part / whole`, characterised by what multiplying it back gives. */
  function Share(part: real, whole: real): (q: real)
    requires whole != 0.0
    ensures q * whole == part
    ensures part > 0.0 && whole > 0.0 ==> q > 0.0
  {
    part / whole
  }

  /** The constructor: areal density from mass and radius, and a trail holding the start position. */
  function NewBody(mass: real, radius: real, pos: Vector, vel: Vector, color: Color, name: string, tres: nat): (b: Body)
    requires radius != 0.0
    ensures b.density * (Pi * radius * radius) == mass
    ensures b.trail == [pos]
    ensures b.mass == mass && b.radius == radius && b.pos == pos && b.vel == vel
    ensures b.color == color && b.name == name && b.tres == tres
    ensures b.extrema == Unobserved
    ensures mass > 0.0 && radius > 0.0 ==> Valid(b)
  {
    var density := Share(Share(mass, Pi * radius), radius);  // mass / (pi * radius * radius)
    Body(mass, radius, density, pos, vel, color, name, tres, [pos], Unobserved)
  }

  /** Two bodies overlap when their centres are closer than the sum of their radii. */
  predicate Overlaps(ph: Physics, a: Body, b: Body) {
    Distance(ph.math, a.pos, b.pos) < a.radius + b.radius
  }

  /** The Newtonian magnitude G*m1*m2/d^2 of the pull between two bodies. */
  function Strength(ph: Physics, a: Body, b: Body): (f: real)
    requires Distance(ph.math, a.pos, b.pos) != 0.0
    ensures var d := Distance(ph.math, a.pos, b.pos); f * d * d == ph.g * (a.mass * b.mass)
  {
    var d := Distance(ph.math, a.pos, b.pos);
    Share(Share(ph.g * (a.mass * b.mass), d), d)  // G * m1 * m2 / (d * d)
  }

  /** The force of magnitude G*m1*m2/d^2 along the separation angle, as `Object::attraction` builds it. */
  function Attraction(ph: Physics, a: Body, b: Body): Vector
    requires Distance(ph.math, a.pos, b.pos) != 0.0
  {
    var sep := a.pos.Minus(b.pos);
    var force := Strength(ph, a, b);
    var theta := ph.math.atan2(sep.y, sep.x);
    Vector(ph.math.cos(theta) * force, ph.math.sin(theta) * force)
  }

  /** The law cos^2 + sin^2 = 1, which nothing else in the model assumes. */
  ghost predicate Pythagorean(m: Math) {
    forall t :: m.cos(t) * m.cos(t) + m.sin(t) * m.sin(t) == 1.0
  }

  /** Whatever the angle, the attraction has the Newtonian magnitude G*m1*m2/d^2. */
  lemma AttractionMagnitude(ph: Physics, a: Body, b: Body)
    requires Distance(ph.math, a.pos, b.pos) != 0.0
    requires Pythagorean(ph.math)
    ensures SquaredLength(Attraction(ph, a, b)) == Strength(ph, a, b) * Strength(ph, a, b)
  {
    var sep := a.pos.Minus(b.pos);
    var f := Strength(ph, a, b);
    var theta := ph.math.atan2(sep.y, sep.x);
    var c, s := ph.math.cos(theta), ph.math.sin(theta);
    assert c * c + s * s == 1.0;
    var v := Attraction(ph, a, b);
    assert v.x == c * f && v.y == s * f;
    calc {
      SquaredLength(Attraction(ph, a, b));
      (c * f) * (c * f) + (s * f) * (s * f);
      (c * c + s * s) * (f * f);
      f * f;
    }
  }

  /** Conversion of a blended channel back to `sf::Uint8`: truncation toward zero, then the low
      eight bits (C++ leaves out-of-range conversions undefined; this is what common targets do). */
  function ToByte(v: real): (c: Byte)
    ensures 0.0 <= v < 256.0 ==> c as real <= v < c as real + 1.0
  {
    var t := if v >= 0.0 then v.Floor else -((-v).Floor);
    t % 256
  }

  /** Channel-wise colour blend weighted by log10 of the masses. */
  function BlendColor(c1: Color, c2: Color, log1: real, log2: real): Color {
    if log1 + log2 == 0.0 then c1
    else
      var f1 := Share(log1, log1 + log2);
      var f2 := Share(log2, log1 + log2);
      Color(Mix(c1.r, c2.r, f1, f2), Mix(c1.g, c2.g, f1, f2), Mix(c1.b, c2.b, f1, f2), Mix(c1.a, c2.a, f1, f2))
  }

  /** One channel of the blend. */
  function Mix(x1: Byte, x2: Byte, f1: real, f2: real): Byte {
    ToByte(x1 as real * f1 + x2 as real * f2)
  }

  /** The two blend weights add up to one. */
  lemma WeightsSumToOne(w1: real, w2: real)
    requires w1 + w2 != 0.0
    ensures Share(w1, w1 + w2) + Share(w2, w1 + w2) == 1.0
  {
    assert w1 / (w1 + w2) + w2 / (w1 + w2) == (w1 + w2) / (w1 + w2);
  }

  /** A channel blended with itself under weights summing to one is unchanged. */
  lemma BlendChannelSame(x: Byte, f1: real, f2: real)
    requires f1 + f2 == 1.0
    ensures Mix(x, x, f1, f2) == x
  {
    var v := x as real * f1 + x as real * f2;
    assert v == x as real * (f1 + f2);
    assert v == x as real;
    assert v.Floor == x;
  }

  /** Blending a colour with itself gives it back, whatever the masses. */
  lemma BlendSameColor(c: Color, log1: real, log2: real)
    ensures BlendColor(c, c, log1, log2) == c
  {
    if log1 + log2 != 0.0 {
      var t := log1 + log2;
      var f1, f2 := Share(log1, t), Share(log2, t);
      WeightsSumToOne(log1, log2);
      BlendChannelSame(c.r, f1, f2);
      BlendChannelSame(c.g, f1, f2);
      BlendChannelSame(c.b, f1, f2);
      BlendChannelSame(c.a, f1, f2);
    }
  }

  /** Scaling the mass-weighted blend of `u` and `v` back by the total mass gives the total
      "momentum" `m1*u + m2*v`. */
  lemma WeightedSum(m1: real, m2: real, u: real, v: real)
    requires m1 + m2 != 0.0
    ensures (m1 + m2) * (u * Share(m1, m1 + m2) + v * Share(m2, m1 + m2)) == m1 * u + m2 * v
  {
    var t := m1 + m2;
    var f1, f2 := Share(m1, t), Share(m2, t);
    calc {
      t * (u * f1 + v * f2);
      u * (f1 * t) + v * (f2 * t);
    }
  }

  /** A mass-weighted blend of two positive quantities is positive. */
  lemma PositiveBlend(m1: real, m2: real, u: real, v: real)
    requires m1 > 0.0 && m2 > 0.0 && u > 0.0 && v > 0.0
    ensures u * Share(m1, m1 + m2) + v * Share(m2, m1 + m2) > 0.0
  {
    var f1, f2 := Share(m1, m1 + m2), Share(m2, m1 + m2);
    assert u * f1 > 0.0 && v * f2 > 0.0;
  }

  /** Density is mass per disc area: `density * pi * radius^2 == mass`, as the constructor sets it. */
  predicate DensityMatches(b: Body) {
    b.density * (Pi * b.radius * b.radius) == b.mass
  }

  /** The law sqrt(x)^2 = x for x >= 0, which only the merge-radius lemmas assume. */
  ghost predicate SquareRoots(m: Math) {
    forall x :: 0.0 <= x ==> m.sqrt(x) * m.sqrt(x) == x
  }

  /** The square root of a positive number is positive, which only the validity of a merge assumes. */
  ghost predicate PositiveRoots(m: Math) {
    forall x :: 0.0 < x ==> 0.0 < m.sqrt(x)
  }

  /** The merged radius as `Object::update` computes it: the area is the total mass over the new
      density PLUS the absorbing body's old disc area over that density, then r = sqrt(area / pi). */
  function MergedRadiusAsWritten(ph: Physics, self: Body, mass: real, density: real): real
    requires density != 0.0
  {
    var area := Share(mass, density) + Share(Pi * self.radius * self.radius, density);
    ph.math.sqrt(Share(area, Pi))
  }

  /** Positive mass and density give a positive area, hence a positive radius when roots of
      positive numbers are positive. */
  lemma MergedRadiusAsWrittenPositive(ph: Physics, self: Body, mass: real, density: real)
    requires mass > 0.0 && density > 0.0
    ensures PositiveRoots(ph.math) ==> MergedRadiusAsWritten(ph, self, mass, density) > 0.0
  {
    var area := Share(mass, density) + Share(Pi * self.radius * self.radius, density);
    assert Pi * self.radius * self.radius >= 0.0;
    assert area > 0.0 && Share(area, Pi) > 0.0;
  }

  /** The merged radius with the area the new mass and density determine: r = sqrt(mass / density / pi). */
  function MergedRadius(ph: Physics, mass: real, density: real): real
    requires density != 0.0
  {
    ph.math.sqrt(Share(Share(mass, density), Pi))
  }

  /** As written, the merged disc is too large: density * pi * r^2 exceeds the merged mass by the
      absorbing body's old disc area, so the body no longer has the density it carries. */
  lemma MergedRadiusAsWrittenOverstates(ph: Physics, self: Body, mass: real, density: real)
    requires SquareRoots(ph.math) && mass > 0.0 && density > 0.0
    ensures var r := MergedRadiusAsWritten(ph, self, mass, density);
      density * (Pi * r * r) == mass + Pi * self.radius * self.radius
  {
    var area := Share(mass, density) + Share(Pi * self.radius * self.radius, density);
    var q := Share(area, Pi);
    assert Pi * self.radius * self.radius >= 0.0;
    assert Share(Pi * self.radius * self.radius, density) >= 0.0;
    assert area >= 0.0;
    assert q >= 0.0;
    var r := ph.math.sqrt(q);
    assert r * r == q;
    calc {
      density * (Pi * r * r);
      density * (Pi * q);
      density * area;
      mass + Pi * self.radius * self.radius;
    }
  }

  /** Two equal unit-radius bodies of mass pi (density 1) merge into mass 2*pi at density 1, so the
      merged disc should have area 2*pi; as written it gets area 3*pi. */
  lemma MergedRadiusAsWrittenExample(ph: Physics)
    requires SquareRoots(ph.math)
    ensures var self := NewBody(Pi, 1.0, Zero, Zero, Color(0, 0, 0, 255), "a", 1);
      var r := MergedRadiusAsWritten(ph, self, 2.0 * Pi, 1.0);
      r * r == 3.0 && DensityMatches(self)
  {
    var self := NewBody(Pi, 1.0, Zero, Zero, Color(0, 0, 0, 255), "a", 1);
    MergedRadiusAsWrittenOverstates(ph, self, 2.0 * Pi, 1.0);
    var r := MergedRadiusAsWritten(ph, self, 2.0 * Pi, 1.0);
    assert 1.0 * (Pi * r * r) == 2.0 * Pi + Pi * self.radius * self.radius;
    assert self.radius == 1.0;
    assert Pi * (r * r) == Pi * 3.0;
  }

  /** With the corrected area the merged body has exactly the density it carries. */
  lemma MergedRadiusMatchesDensity(ph: Physics, mass: real, density: real)
    requires SquareRoots(ph.math) && mass > 0.0 && density > 0.0
    ensures var r := MergedRadius(ph, mass, density); density * (Pi * r * r) == mass
  {
    var q := Share(Share(mass, density), Pi);
    var r := ph.math.sqrt(q);
    assert r * r == q;
    calc {
      density * (Pi * r * r);
      density * (Pi * q);
      density * Share(mass, density);
      mass;
    }
  }

  /** Everything the collision branch of `Object::update` (lines 68-86) does to `self` before it
      recomputes the radius: masses add, velocity and density are mass-weighted, the colour is
      blended, and the lighter body takes the heavier one's name and trail. */
  function Absorb(ph: Physics, self: Body, other: Body): (r: Body)
    requires Valid(self) && Valid(other)
    ensures r.mass == self.mass + other.mass
    ensures r.mass * r.vel.x == self.mass * self.vel.x + other.mass * other.vel.x
    ensures r.mass * r.vel.y == self.mass * self.vel.y + other.mass * other.vel.y
    ensures r.mass * r.density == self.mass * self.density + other.mass * other.density
    ensures self.mass < other.mass ==> r.name == other.name && r.trail == other.trail
    ensures self.mass >= other.mass ==> r.name == self.name && r.trail == self.trail
    ensures r.pos == self.pos && r.radius == self.radius && r.tres == self.tres && r.extrema == self.extrema
    ensures r.color == BlendColor(self.color, other.color, ph.math.log10(self.mass), ph.math.log10(other.mass))
    ensures r.mass > 0.0 && r.density > 0.0 && |r.trail| > 0
  {
    var log1 := ph.math.log10(self.mass);
    var log2 := ph.math.log10(other.mass);
    var heavier := if self.mass < other.mass then other else self;
    var total := self.mass + other.mass;
    var f1 := Share(self.mass, total);
    var f2 := Share(other.mass, total);
    var vel := self.vel.Times(f1).Plus(other.vel.Times(f2));
    var density := self.density * f1 + other.density * f2;
    WeightedSum(self.mass, other.mass, self.vel.x, other.vel.x);
    WeightedSum(self.mass, other.mass, self.vel.y, other.vel.y);
    WeightedSum(self.mass, other.mass, self.density, other.density);
    PositiveBlend(self.mass, other.mass, self.density, other.density);
    self.(
      mass := total,
      density := density,
      vel := vel,
      color := BlendColor(self.color, other.color, log1, log2),
      name := heavier.name,
      trail := heavier.trail)
  }

  /** The collision branch of `Object::update`: `self` absorbs `other`, and the merged radius is
      the one lines 88-89 compute. */
  function Merge(ph: Physics, self: Body, other: Body): (r: Body)
    requires Valid(self) && Valid(other)
    ensures r.mass == self.mass + other.mass
    ensures r.mass * r.vel.x == self.mass * self.vel.x + other.mass * other.vel.x
    ensures r.mass * r.vel.y == self.mass * self.vel.y + other.mass * other.vel.y
    ensures r.mass * r.density == self.mass * self.density + other.mass * other.density
    ensures self.mass < other.mass ==> r.name == other.name && r.trail == other.trail
    ensures self.mass >= other.mass ==> r.name == self.name && r.trail == self.trail
    ensures r.pos == self.pos && r.tres == self.tres && r.extrema == self.extrema
    ensures r.mass > 0.0 && r.density > 0.0 && |r.trail| > 0
    ensures r.color == BlendColor(self.color, other.color, ph.math.log10(self.mass), ph.math.log10(other.mass))
    ensures r.radius == MergedRadiusAsWritten(ph, self, r.mass, r.density)
    ensures PositiveRoots(ph.math) ==> Valid(r)
  {
    var m := Absorb(ph, self, other);
    MergedRadiusAsWrittenPositive(ph, self, m.mass, m.density);
    m.(radius := MergedRadiusAsWritten(ph, self, m.mass, m.density))
  }

  /** As written, a merge leaves the body with a disc too large for its mass and density: the
      excess is the absorbing body's old disc area. */
  lemma MergeOverstatesDensity(ph: Physics, self: Body, other: Body)
    requires Valid(self) && Valid(other) && SquareRoots(ph.math)
    ensures var r := Merge(ph, self, other);
      r.density * (Pi * r.radius * r.radius) == r.mass + Pi * self.radius * self.radius
  {
    var r := Merge(ph, self, other);
    MergedRadiusAsWrittenOverstates(ph, self, r.mass, r.density);
  }

  /** The merge with the corrected radius: everything as `Merge`, but the disc area is the one the
      merged mass and density determine. */
  function IntendedMerge(ph: Physics, self: Body, other: Body): (r: Body)
    requires Valid(self) && Valid(other)
    ensures r == Merge(ph, self, other).(radius := r.radius)
    ensures r.density > 0.0 && r.radius == MergedRadius(ph, r.mass, r.density)
  {
    var m := Merge(ph, self, other);
    m.(radius := MergedRadius(ph, m.mass, m.density))
  }

  /** The corrected merge keeps density equal to mass per disc area. */
  lemma IntendedMergeKeepsDensityMatch(ph: Physics, self: Body, other: Body)
    requires Valid(self) && Valid(other) && SquareRoots(ph.math)
    ensures DensityMatches(IntendedMerge(ph, self, other))
  {
    var r := IntendedMerge(ph, self, other);
    MergedRadiusMatchesDensity(ph, r.mass, r.density);
  }

  /** The trail after recording `p`: push at the back, then drop the front once over `tres`. */
  function PushTrail(trail: seq<Vector>, p: Vector, tres: nat): (r: seq<Vector>)
    ensures |r| == if |trail| + 1 > tres then |trail| else |trail| + 1
    ensures r == (trail + [p])[|trail| + 1 - |r|..]
    ensures |trail| > 0 || tres > 0 ==> |r| > 0 && r[|r| - 1] == p
  {
    var t := trail + [p];
    if |t| > tres then t[1..] else t
  }

  /** The number of positions a trail holds in the long run: `tres`, but never fewer than one. */
  function Cap(tres: nat): nat {
    if tres == 0 then 1 else tres
  }

  /** The newest `n` entries of a history (all of it when it is shorter). */
  function Window(h: seq<Vector>, n: nat): seq<Vector> {
    if |h| <= n then h else h[|h| - n..]
  }

  /** One push keeps a trail equal to the newest window of the history of positions. */
  lemma PushKeepsNewest(h: seq<Vector>, trail: seq<Vector>, p: Vector, tres: nat)
    requires |h| > 0 && trail == Window(h, Cap(tres))
    ensures PushTrail(trail, p, tres) == Window(h + [p], Cap(tres))
  {
    var h' := h + [p];
    if |h| < Cap(tres) {
      assert trail == h;
    } else {
      assert |trail| == Cap(tres);
      assert (trail + [p])[1..] == h'[|h'| - Cap(tres)..];
    }
  }

  /** The trail after recording the positions `ps` one tick after the other. */
  function Record(trail: seq<Vector>, ps: seq<Vector>, tres: nat): seq<Vector>
    decreases |ps|
  {
    if ps == [] then trail else Record(PushTrail(trail, ps[0], tres), ps[1..], tres)
  }

  /** FIFO eviction: over any run of ticks the trail is exactly the newest `Cap(tres)` positions. */
  lemma {:induction false} TrailIsNewestWindow(h: seq<Vector>, trail: seq<Vector>, ps: seq<Vector>, tres: nat)
    requires |h| > 0 && trail == Window(h, Cap(tres))
    ensures Record(trail, ps, tres) == Window(h + ps, Cap(tres))
    decreases |ps|
  {
    if ps != [] {
      PushKeepsNewest(h, trail, ps[0], tres);
      TrailIsNewestWindow(h + [ps[0]], PushTrail(trail, ps[0], tres), ps[1..], tres);
      assert h + [ps[0]] + ps[1..] == h + ps;
    }
  }

  /** A trail already longer than `tres` never shrinks: each push drops at most one position. */
  lemma {:induction false} LongTrailKeepsLength(trail: seq<Vector>, ps: seq<Vector>, tres: nat)
    requires |trail| > tres
    ensures |Record(trail, ps, tres)| == |trail|
    decreases |ps|
  {
    if ps != [] {
      LongTrailKeepsLength(PushTrail(trail, ps[0], tres), ps[1..], tres);
    }
  }

  /** A lighter body that absorbs a heavier one adopts its trail, which may be longer than its own
      `tres`; the trail then keeps that length for every later tick. */
  lemma AdoptedTrailKeepsLength(ph: Physics, self: Body, other: Body, ps: seq<Vector>)
    requires Valid(self) && Valid(other) && self.mass < other.mass && |other.trail| > self.tres
    ensures var r := Merge(ph, self, other);
      |r.trail| > r.tres && |Record(r.trail, ps, r.tres)| == |other.trail|
  {
    LongTrailKeepsLength(other.trail, ps, self.tres);
  }

  /** The semi-implicit Euler step that ends `Object::update`, followed by the trail update. */
  function Integrate(ph: Physics, b: Body, force: Vector): (r: Body)
    requires b.mass != 0.0
    ensures b.mass * (r.vel.x - b.vel.x) == force.x * ph.timestep
    ensures b.mass * (r.vel.y - b.vel.y) == force.y * ph.timestep
    ensures r.pos.x - b.pos.x == r.vel.x * ph.timestep
    ensures r.pos.y - b.pos.y == r.vel.y * ph.timestep
    ensures r.trail == PushTrail(b.trail, r.pos, b.tres)
    ensures r == b.(vel := r.vel, pos := r.pos, trail := r.trail)
  {
    var accel := Vector(Share(force.x, b.mass), Share(force.y, b.mass));
    var vel := b.vel.Plus(accel.Times(ph.timestep));
    assert b.mass * (vel.x - b.vel.x) == (accel.x * b.mass) * ph.timestep;
    assert b.mass * (vel.y - b.vel.y) == (accel.y * b.mass) * ph.timestep;
    var pos := b.pos.Plus(vel.Times(ph.timestep));
    b.(vel := vel, pos := pos, trail := PushTrail(b.trail, pos, b.tres))
  }

  /** One observation at distance `d` and speed `speed` (src/Object.cpp, `Object::draw`). */
  function Observe(e: Extrema, d: real, speed: real): (r: Extrema)
    ensures r.apogee >= e.apogee && r.apogee >= d
    ensures r.apogee == e.apogee || r.apogee == d
    ensures r.apogee == e.apogee ==> r.apogeeSpeed == e.apogeeSpeed
    ensures r.apogee != e.apogee ==> r.apogeeSpeed == speed
    ensures NoFarther(r.perigee, e.perigee) && r.perigee.Finite? && r.perigee.value <= d
    ensures r.perigee == e.perigee || r.perigee == Finite(d)
    ensures r.perigee == e.perigee ==> r.perigeeSpeed == e.perigeeSpeed
    ensures r.perigee != e.perigee ==> r.perigeeSpeed == speed
  {
    var e1 := if e.apogee < d then e.(apogee := d, apogeeSpeed := speed) else e;
    if e1.perigee.Infinite? || e1.perigee.value > d then e1.(perigee := Finite(d), perigeeSpeed := speed)
    else e1
  }

  /** The extrema update of the draw path, against the most massive body. */
  function ObserveFrom(ph: Physics, b: Body, reference: Body): (r: Body)
    ensures r == b.(extrema := r.extrema)
    ensures r.extrema.apogee >= b.extrema.apogee
    ensures NoFarther(r.extrema.perigee, b.extrema.perigee)
    ensures r.extrema.apogee >= Distance(ph.math, b.pos, reference.pos)
    ensures r.extrema.perigee.Finite? && r.extrema.perigee.value <= Distance(ph.math, b.pos, reference.pos)
  {
    b.(extrema := Observe(b.extrema, Distance(ph.math, b.pos, reference.pos), Magnitude(ph.math, b.vel)))
  }

  datatype Sighting = Sighting(distance: real, speed: real)

  /** The watermarks after a run of observations, oldest first. */
  function ObserveAll(e: Extrema, s: seq<Sighting>): Extrema
    decreases |s|
  {
    if s == [] then e else ObserveAll(Observe(e, s[0].distance, s[0].speed), s[1..])
  }

  /** After any run of observations the apogee bounds every observed distance from above and the
      perigee bounds it from below, and neither has moved the wrong way. */
  lemma {:induction false} Watermarks(e: Extrema, s: seq<Sighting>)
    ensures var r := ObserveAll(e, s);
      && r.apogee >= e.apogee
      && NoFarther(r.perigee, e.perigee)
      && (forall i :: 0 <= i < |s| ==> s[i].distance <= r.apogee)
      && (forall i :: 0 <= i < |s| ==> r.perigee.Finite? && r.perigee.value <= s[i].distance)
    decreases |s|
  {
    if s != [] {
      var e1 := Observe(e, s[0].distance, s[0].speed);
      Watermarks(e1, s[1..]);
      var r := ObserveAll(e, s);
      assert r == ObserveAll(e1, s[1..]);
      forall i | 0 <= i < |s|
        ensures s[i].distance <= r.apogee
        ensures r.perigee.Finite? && r.perigee.value <= s[i].distance
      {
        if i > 0 {
          assert s[i] == s[1..][i - 1];
        }
      }
    }
  }
}

=== FILE: body_update.dfy ===
/**
  `Object::update` (src/Object.cpp): one body scans the other bodies of the list, absorbs the first
  one it overlaps (or stops at it when collisions are off), accumulates the pull of every partner
  scanned before that, and then takes its Euler step.

  The body being updated is the element at slot `self` of the list, so "this != &object" becomes
  "j != self". Removing the partner is taken to remove exactly that element.
 */
module BodyUpdate {
  import opened Wrappers
  import opened Vectors
  import opened Bodies

  /** No partner of `self` in slots [lo, hi) overlaps it. */
  predicate ClearBetween(ph: Physics, bodies: seq<Body>, self: nat, lo: nat, hi: nat)
    requires self < |bodies| && hi <= |bodies|
  {
    forall j :: lo <= j < hi && j != self ==> !Overlaps(ph, bodies[self], bodies[j])
  }

  /** The first partner at or after slot `from` that overlaps `self`, if any. */
  function FirstOverlap(ph: Physics, bodies: seq<Body>, self: nat, from: nat): (k: Option<nat>)
    requires self < |bodies| && from <= |bodies|
    ensures k.None? ==> ClearBetween(ph, bodies, self, from, |bodies|)
    ensures k.Some? ==> from <= k.value < |bodies| && k.value != self
    ensures k.Some? ==> Overlaps(ph, bodies[self], bodies[k.value]) && ClearBetween(ph, bodies, self, from, k.value)
    decreases |bodies| - from
  {
    if from == |bodies| then None
    else if from != self && Overlaps(ph, bodies[self], bodies[from]) then Some(from)
    else FirstOverlap(ph, bodies, self, from + 1)
  }

  /** The accumulated pull on `self`: minus the attraction of every partner in slots [0, hi). */
  function Pull(ph: Physics, bodies: seq<Body>, self: nat, hi: nat): Vector
    requires AllValid(bodies) && self < |bodies| && hi <= |bodies|
    requires ClearBetween(ph, bodies, self, 0, hi)
  {
    if hi == 0 then Zero
    else if hi - 1 == self then Pull(ph, bodies, self, hi - 1)
    else
      assert !Overlaps(ph, bodies[self], bodies[hi - 1]);
      Pull(ph, bodies, self, hi - 1).Minus(Attraction(ph, bodies[self], bodies[hi - 1]))
  }

  /** The list without slot `k`, the others in their original order. */
  function RemoveAt<T>(s: seq<T>, k: nat): (r: seq<T>)
    requires k < |s|
    ensures |r| == |s| - 1
    ensures forall i :: 0 <= i < k ==> r[i] == s[i]
    ensures forall i :: k < i < |s| ==> r[i - 1] == s[i]
  {
    s[..k] + s[k + 1..]
  }

  /** Where slot `i` ends up once slot `k` has been removed. */
  function Shifted(i: nat, k: nat): nat {
    if k < i then i - 1 else i
  }

  /** Whether the update of `self` absorbs a partner. */
  predicate Absorbs(ph: Physics, bodies: seq<Body>, self: nat)
    requires self < |bodies|
  {
    ph.collisions && FirstOverlap(ph, bodies, self, 0).Some?
  }

  /** The list after updating `self`, stated from the first overlap and the pull before it. */
  function Updated(ph: Physics, bodies: seq<Body>, self: nat): seq<Body>
    requires AllValid(bodies) && self < |bodies|
  {
    var me := bodies[self];
    match FirstOverlap(ph, bodies, self, 0)
    case None => bodies[self := Integrate(ph, me, Pull(ph, bodies, self, |bodies|))]
    case Some(k) =>
      if !ph.collisions then bodies[self := Integrate(ph, me, Pull(ph, bodies, self, k))]
      else RemoveAt(bodies[self := Integrate(ph, Merge(ph, me, bodies[k]), Pull(ph, bodies, self, k))], k)
  }

  /** The scan of `Object::update` as the loop it is; it agrees with `Updated`. */
  method Update(ph: Physics, bodies: seq<Body>, self: nat) returns (after: seq<Body>, absorbed: Option<nat>)
    requires AllValid(bodies) && self < |bodies|
    ensures after == Updated(ph, bodies, self)
    ensures absorbed.Some? <==> Absorbs(ph, bodies, self)
    ensures absorbed.Some? ==> absorbed == FirstOverlap(ph, bodies, self, 0)
  {
    var me := bodies[self];
    var force := Zero;
    var j := 0;
    while j < |bodies|
      invariant j <= |bodies|
      invariant ClearBetween(ph, bodies, self, 0, j)
      invariant force == Pull(ph, bodies, self, j)
      invariant FirstOverlap(ph, bodies, self, j) == FirstOverlap(ph, bodies, self, 0)
    {
      if j != self && Overlaps(ph, me, bodies[j]) {
        break;
      }
      if j != self {
        force := force.Minus(Attraction(ph, me, bodies[j]));
      }
      j := j + 1;
    }
    if j < |bodies| && ph.collisions {
      after := RemoveAt(bodies[self := Integrate(ph, Merge(ph, me, bodies[j]), force)], j);
      absorbed := Some(j);
    } else {
      after := bodies[self := Integrate(ph, me, force)];
      absorbed := None;
    }
  }

  /** List surgery: at most one partner disappears, every other body keeps its value and relative
      order, and the updated body sits where its slot moved to. */
  lemma UpdatedKeepsOthers(ph: Physics, bodies: seq<Body>, self: nat)
    requires AllValid(bodies) && self < |bodies|
    ensures var after := Updated(ph, bodies, self);
      var k := FirstOverlap(ph, bodies, self, 0);
      if Absorbs(ph, bodies, self) then
        && |after| == |bodies| - 1
        && (forall i :: 0 <= i < |bodies| && i != self && i != k.value ==> after[Shifted(i, k.value)] == bodies[i])
      else
        && |after| == |bodies|
        && (forall i :: 0 <= i < |bodies| && i != self ==> after[i] == bodies[i])
  {
    var k := FirstOverlap(ph, bodies, self, 0);
    if Absorbs(ph, bodies, self) {
      var after := Updated(ph, bodies, self);
      var me := Integrate(ph, Merge(ph, bodies[self], bodies[k.value]), Pull(ph, bodies, self, k.value));
      var mid := bodies[self := me];
      assert after == RemoveAt(mid, k.value);
      forall i | 0 <= i < |bodies| && i != self && i != k.value
        ensures after[Shifted(i, k.value)] == bodies[i]
      {
        assert mid[i] == bodies[i];
      }
    }
  }

  /** The body `self` becomes: where it sits in the new list and what it is. */
  lemma UpdatedSurvivor(ph: Physics, bodies: seq<Body>, self: nat)
    requires AllValid(bodies) && self < |bodies|
    ensures var after := Updated(ph, bodies, self);
      var k := FirstOverlap(ph, bodies, self, 0);
      var me := bodies[self];
      if Absorbs(ph, bodies, self) then
        var s := after[Shifted(self, k.value)];
        && s.mass == me.mass + bodies[k.value].mass
        && (me.mass < bodies[k.value].mass ==> s.name == bodies[k.value].name)
        && (me.mass >= bodies[k.value].mass ==> s.name == me.name)
        && |s.trail| > 0 && s.trail[|s.trail| - 1] == s.pos
      else
        var s := after[self];
        && s.mass == me.mass && s.name == me.name
        && |s.trail| > 0 && s.trail[|s.trail| - 1] == s.pos
  {
    var k := FirstOverlap(ph, bodies, self, 0);
    if Absorbs(ph, bodies, self) {
      var merged := Merge(ph, bodies[self], bodies[k.value]);
      var me := Integrate(ph, merged, Pull(ph, bodies, self, k.value));
      var mid := bodies[self := me];
      assert Updated(ph, bodies, self) == RemoveAt(mid, k.value);
      assert mid[self] == me;
    }
  }

  /** Every body stays valid: the updated one keeps its mass, radius, density and a non-empty trail,
      or after an absorption has positive mass, density and radius; so updates can be chained. */
  lemma UpdatedValid(ph: Physics, bodies: seq<Body>, self: nat)
    requires AllValid(bodies) && self < |bodies| && PositiveRoots(ph.math)
    ensures AllValid(Updated(ph, bodies, self))
  {
    var k := FirstOverlap(ph, bodies, self, 0);
    var me := bodies[self];
    if Absorbs(ph, bodies, self) {
      var merged := Merge(ph, me, bodies[k.value]);
      var next := Integrate(ph, merged, Pull(ph, bodies, self, k.value));
      assert Valid(next);
      var mid := bodies[self := next];
      assert AllValid(mid);
      assert Updated(ph, bodies, self) == RemoveAt(mid, k.value);
    } else if k.Some? {
      assert Valid(Integrate(ph, me, Pull(ph, bodies, self, k.value)));
    } else {
      assert Valid(Integrate(ph, me, Pull(ph, bodies, self, |bodies|)));
    }
  }

  /** The pull accumulated over slots [0, hi) depends only on those slots and on `self`. */
  lemma {:induction false} PullDependsOnScanned(ph: Physics, a: seq<Body>, b: seq<Body>, self: nat, hi: nat)
    requires AllValid(a) && AllValid(b) && self < |a| && self < |b| && hi <= |a| && hi <= |b|
    requires a[self] == b[self] && a[..hi] == b[..hi]
    requires ClearBetween(ph, a, self, 0, hi)
    ensures ClearBetween(ph, b, self, 0, hi)
    ensures Pull(ph, a, self, hi) == Pull(ph, b, self, hi)
  {
    forall j | 0 <= j < hi
      ensures a[j] == b[j]
    {
      assert a[..hi][j] == b[..hi][j];
    }
    if hi > 0 {
      assert a[..hi - 1] == a[..hi][..hi - 1];
      assert b[..hi - 1] == b[..hi][..hi - 1];
      PullDependsOnScanned(ph, a, b, self, hi - 1);
    }
  }

  /** With collisions off, the scan stops at the first overlapping partner: no partner after it
      contributes anything, so changing those partners does not change the updated body. */
  lemma LaterPartnersIgnored(ph: Physics, a: seq<Body>, b: seq<Body>, self: nat, k: nat)
    requires !ph.collisions
    requires AllValid(a) && AllValid(b) && self < |a| && self < |b| && k < |a| && k < |b|
    requires FirstOverlap(ph, a, self, 0) == Some(k)
    requires a[self] == b[self] && a[..k + 1] == b[..k + 1]
    ensures FirstOverlap(ph, b, self, 0) == Some(k)
    ensures Updated(ph, a, self)[self] == Updated(ph, b, self)[self]
    ensures |Updated(ph, a, self)| == |a| && forall i :: 0 <= i < |a| && i != self ==> Updated(ph, a, self)[i] == a[i]
  {
    assert a[..k] == a[..k + 1][..k] && b[..k] == b[..k + 1][..k];
    PullDependsOnScanned(ph, a, b, self, k);
    assert a[k] == a[..k + 1][k] && b[k] == b[..k + 1][k];
    FirstOverlapAgrees(ph, b, self, k);
  }

  /** A partner that overlaps after a clear stretch is the first overlap. */
  lemma FirstOverlapAgrees(ph: Physics, bodies: seq<Body>, self: nat, k: nat)
    requires self < |bodies| && k < |bodies| && k != self
    requires ClearBetween(ph, bodies, self, 0, k) && Overlaps(ph, bodies[self], bodies[k])
    ensures FirstOverlap(ph, bodies, self, 0) == Some(k)
  {
    FirstOverlapFrom(ph, bodies, self, 0, k);
  }

  lemma {:induction false} FirstOverlapFrom(ph: Physics, bodies: seq<Body>, self: nat, from: nat, k: nat)
    requires self < |bodies| && from <= k < |bodies| && k != self
    requires ClearBetween(ph, bodies, self, from, k) && Overlaps(ph, bodies[self], bodies[k])
    ensures FirstOverlap(ph, bodies, self, from) == Some(k)
    decreases k - from
  {
    if from < k {
      FirstOverlapFrom(ph, bodies, self, from + 1, k);
    }
  }
}

=== FILE: file_types.dfy ===
/**
  `FileModel::file_type` (src/gui/FileExplorer.cpp): the "File type" column of the file explorer,
  computed from the path text alone. Paths use '/' as their only separator.
 */
module FileTypes {
  import opened Wrappers
  import opened Text

  /** `path.filename()`: the text after the last '/', empty when the path ends in '/'. */
  function Filename(path: string): (f: string)
    ensures '/' !in f
    ensures |f| <= |path| && path[|path| - |f|..] == f
    ensures |f| < |path| ==> path[|path| - |f| - 1] == '/'
  {
    match LastIndexOf(path, '/')
    case None => path
    case Some(k) => path[k + 1..]
  }

  /** `filename.extension()`: from the last '.' to the end, except that a leading '.' does not
      start an extension and "." and ".." have none. */
  function Extension(filename: string): (e: string)
    ensures e != [] ==> |e| < |filename| && filename[|filename| - |e|..] == e && e[0] == '.' && '.' !in e[1..]
    ensures e == [] <==>
      filename == "." || filename == ".." || forall i :: 0 < i < |filename| ==> filename[i] != '.'
  {
    if filename == "." || filename == ".." then ""
    else match LastIndexOf(filename, '.')
      case None => ""
      case Some(k) =>
        assert forall i :: k < i < |filename| ==> filename[i] == filename[k + 1..][i - k - 1];
        if k == 0 then "" else filename[k..]
  }

  /** The names of the extensions the explorer knows. */
  const ExtensionNames: map<string, string> := map[
    ".cmake" := "CMake script",
    ".essa" := "ESSA config",
    ".md" := "Markdown file",
    ".png" := "PNG image",
    ".py" := "Python script",
    ".ttf" := "TTF font",
    ".txt" := "Text file"]

  /** The key looked up in the table: the extension, or the whole name for a dot-file without one. */
  function LookupKey(filename: string): string {
    var ext := Extension(filename);
    if ext == [] && |filename| > 0 && filename[0] == '.' then filename else ext
  }

  /** `FileModel::file_type`. */
  function FileType(path: string): (r: string)
    ensures Filename(path) == "CMakeLists.txt" ==> r == "CMake project"
  {
    var filename := Filename(path);
    if filename == "CMakeLists.txt" then "CMake project"
    else
      var key := LookupKey(filename);
      if key in ExtensionNames then ExtensionNames[key] else key + " file"
  }

  /** A directory prefix: empty, or ending in the separator. */
  predicate IsDirectoryPrefix(dir: string) {
    dir == [] || dir[|dir| - 1] == '/'
  }

  /** `dir / name` for a relative `name`, as `std::filesystem::path::operator/` forms the paths a
      `directory_iterator` yields: a separator is inserted unless `dir` is empty or already ends
      in one. */
  function Join(dir: string, name: string): (p: string)
    ensures IsDirectoryPrefix(dir) ==> p == dir + name
    ensures !IsDirectoryPrefix(dir) ==> p == dir + "/" + name
  {
    if IsDirectoryPrefix(dir) then dir + name else dir + "/" + name
  }

  /** The file name of a joined path is the name joined, whatever the directory. */
  lemma FilenameOfJoin(dir: string, name: string)
    requires '/' !in name
    ensures Filename(Join(dir, name)) == name
  {
    var d := if IsDirectoryPrefix(dir) then dir else dir + "/";
    assert Join(dir, name) == d + name;
    LastIndexOfAppend(d, name, '/');
    if d != [] {
      assert LastIndexOf(d, '/') == Some(|d| - 1);
      assert (d + name)[|d|..] == name;
    } else {
      assert d + name == name;
    }
  }

  /** The type of an entry depends only on its own name, not on the directory it is listed in. */
  lemma FileTypeOfJoin(dir: string, name: string)
    requires '/' !in name
    ensures FileType(Join(dir, name)) == FileType(name)
  {
    FilenameOfJoin(dir, name);
    FilenameOfJoin("", name);
  }

  /** The lookup key of `stem + ext` is `ext` when `ext` is one dot followed by dot-free text:
      either `ext` is the extension, or the whole name is the dot-file `ext`. */
  lemma LookupKeyOfExtension(stem: string, ext: string)
    requires |ext| > 0 && ext[0] == '.' && '.' !in ext[1..]
    requires stem + ext != ".."
    ensures LookupKey(stem + ext) == ext
  {
    var f := stem + ext;
    assert forall i :: |stem| < i < |f| ==> f[i] == ext[1..][i - |stem| - 1];
    if stem == [] {
      assert f == ext;
    } else {
      assert f != "." && f != "..";
      LastIndexOfAppend(stem + [ext[0]], ext[1..], '.');
      assert f == (stem + [ext[0]]) + ext[1..];
      assert LastIndexOf(stem + [ext[0]], '.') == Some(|stem|);
      assert f[|stem|..] == ext;
    }
  }

  /** The file type of `dir/stem.ext` is the table's name for `.ext`, or ".ext file" when the table
      has none; with an empty stem this is the dot-file rule (".gitignore" gives ".gitignore file"). */
  lemma FileTypeByExtension(dir: string, stem: string, ext: string)
    requires '/' !in stem + ext
    requires |ext| > 0 && ext[0] == '.' && '.' !in ext[1..]
    requires stem + ext != ".." && stem + ext != "CMakeLists.txt"
    ensures FileType(Join(dir, stem + ext)) == if ext in ExtensionNames then ExtensionNames[ext] else ext + " file"
  {
    FilenameOfJoin(dir, stem + ext);
    LookupKeyOfExtension(stem, ext);
  }

  /** A name with no '.' at all has the empty extension, so its type is just " file". */
  lemma FileTypeWithoutDot(dir: string, name: string)
    requires '/' !in name && '.' !in name
    ensures FileType(Join(dir, name)) == " file"
  {
    FilenameOfJoin(dir, name);
    assert Extension(name) == [];
    assert "" !in ExtensionNames;
  }

  /** The special case wins over the table: ".txt" would otherwise give "Text file". */
  lemma CMakeListsIsProject(dir: string)
    ensures FileType(Join(dir, "CMakeLists.txt")) == "CMake project"
  {
    FilenameOfJoin(dir, "CMakeLists.txt");
  }
}

=== FILE: listing.dfy ===
/**
  `FileModel::update_content` (src/gui/FileExplorer.cpp) over an abstract directory listing: which
  entries are kept, the four text columns of each row, and the two sorts, one over the rows and one
  over the paths that clicking a row opens.
 */
module Listing {
  import opened Text
  import opened Sorting
  import FileTypes

  /** One entry of the directory being listed, as the filesystem reports it. `sizeText` is the
      formatted size of a regular file and `modified` the formatted modification time. */
  datatype Entry = Entry(name: string, isDirectory: bool, present: bool, sizeText: string, modified: string)

  /** The four columns: name, size, modified, file type. */
  datatype Row = Row(name: string, size: string, modified: string, kind: string)

  /** The row shown for an entry of directory `dir`: directories have an empty size column and the
      type "Directory"; other entries get their size and their file type. */
  function RowOf(dir: string, e: Entry): (r: Row)
    ensures r.name == e.name && r.modified == e.modified
    ensures e.isDirectory ==> r.size == "" && r.kind == "Directory"
    ensures !e.isDirectory ==> r.size == e.sizeText && r.kind == FileTypes.FileType(FileTypes.Join(dir, e.name))
  {
    if e.isDirectory then Row(e.name, "", e.modified, "Directory")
    else Row(e.name, e.sizeText, e.modified, FileTypes.FileType(FileTypes.Join(dir, e.name)))
  }

  /** The rows of the entries, in order. */
  function RowsOf(dir: string, es: seq<Entry>): (rows: seq<Row>)
    ensures |rows| == |es|
    ensures forall i :: 0 <= i < |es| ==> rows[i] == RowOf(dir, es[i])
  {
    MapSeq((e: Entry) => RowOf(dir, e), es)
  }

  /** The paths of the entries, in order. */
  function PathsOf(dir: string, es: seq<Entry>): (paths: seq<string>)
    ensures |paths| == |es|
    ensures forall i :: 0 <= i < |es| ==> paths[i] == FileTypes.Join(dir, es[i].name)
  {
    MapSeq((e: Entry) => FileTypes.Join(dir, e.name), es)
  }

  /** The entries the loop keeps: those still present and whose name the condition accepts, each
      as often as the listing has it. */
  function Kept(es: seq<Entry>, condition: string -> bool): (kept: seq<Entry>)
    ensures forall e :: e in kept <==> e in es && e.present && condition(e.name)
    ensures forall e :: multiset(kept)[e] == if e.present && condition(e.name) then multiset(es)[e] else 0
    ensures |kept| <= |es|
  {
    if es == [] then []
    else
      var rest := Kept(es[1..], condition);
      assert forall e :: e in es <==> e == es[0] || e in es[1..];
      assert es == [es[0]] + es[1..];
      assert multiset(es) == multiset{es[0]} + multiset(es[1..]);
      if es[0].present && condition(es[0].name) then [es[0]] + rest else rest
  }

  /** The row comparator as written. */
  function RowBefore(a: Row, b: Row): bool {
    if a.size == b.size then Less(a.name, b.name)
    else if |a.size| == 0 then true
    else if |b.size| == 0 then false
    else Less(a.name, b.name)
  }

  /** The path comparator as written. The paths listed share their parent directory, and
      `std::filesystem::path` compares element by element, so `a < b` is the order of the names. */
  function EntryBefore(a: Entry, b: Entry): bool {
    if a.isDirectory == b.isDirectory then Less(a.name, b.name)
    else a.isDirectory
  }

  /** The row comparator orders by the key (size column non-empty, name): rows with an empty size
      column come first, and rows on the same side are ordered by name. */
  lemma RowBeforeByKey(a: Row, b: Row)
    ensures RowBefore(a, b) <==>
      (a.size == [] && b.size != []) || ((a.size == []) == (b.size == []) && Less(a.name, b.name))
  {
  }

  /** The path comparator puts directories first and orders each group by name. */
  lemma EntryBeforeByKey(a: Entry, b: Entry)
    ensures EntryBefore(a, b) <==>
      (a.isDirectory && !b.isDirectory) || (a.isDirectory == b.isDirectory && Less(a.name, b.name))
  {
  }

  /** Both comparators are strict weak orderings, as `std::sort` requires: irreflexive,
      transitive, and with transitive incomparability. */
  lemma {:induction false} ComparatorsAreStrict()
    ensures Irreflexive(RowBefore) && Transitive(RowBefore) && IncomparableTransitive(RowBefore)
    ensures Irreflexive(EntryBefore) && Transitive(EntryBefore) && IncomparableTransitive(EntryBefore)
  {
    forall a: Row, b: Row, c: Row | Incomparable(RowBefore, a, b) && Incomparable(RowBefore, b, c)
      ensures Incomparable(RowBefore, a, c)
    {
      RowBeforeByKey(a, b);
      RowBeforeByKey(b, a);
      RowBeforeByKey(b, c);
      RowBeforeByKey(c, b);
      LessTotal(a.name, b.name);
      LessTotal(b.name, c.name);
      LessIrreflexive(a.name);
    }
    forall a: Entry, b: Entry, c: Entry | Incomparable(EntryBefore, a, b) && Incomparable(EntryBefore, b, c)
      ensures Incomparable(EntryBefore, a, c)
    {
      LessTotal(a.name, b.name);
      LessTotal(b.name, c.name);
      LessIrreflexive(a.name);
    }
    forall a: Row
      ensures !RowBefore(a, a)
    {
      LessIrreflexive(a.name);
    }
    forall a: Row, b: Row, c: Row | RowBefore(a, b) && RowBefore(b, c)
      ensures RowBefore(a, c)
    {
      if Less(a.name, b.name) && Less(b.name, c.name) {
        LessTransitive(a.name, b.name, c.name);
      }
    }
    forall a: Entry
      ensures !EntryBefore(a, a)
    {
      LessIrreflexive(a.name);
    }
    forall a: Entry, b: Entry, c: Entry | EntryBefore(a, b) && EntryBefore(b, c)
      ensures EntryBefore(a, c)
    {
      if Less(a.name, b.name) && Less(b.name, c.name) {
        LessTransitive(a.name, b.name, c.name);
      }
    }
  }

  /** What the view shows: the rows, and beside them the paths that clicking a row opens. */
  datatype Content = Content(rows: seq<Row>, paths: seq<string>)

  function UpdateContent(dir: string, es: seq<Entry>, condition: string -> bool): (c: Content)
    ensures |c.rows| == |c.paths| == |Kept(es, condition)|
  {
    var kept := Kept(es, condition);
    Content(SortBy(RowsOf(dir, kept), RowBefore), PathsOf(dir, SortBy(kept, EntryBefore)))
  }

  /** The rows are sorted, directories first and then by name, and are exactly the rows of the kept
      entries; the paths are those of the kept entries, directories first and then by name. */
  lemma UpdateContentSorted(dir: string, es: seq<Entry>, condition: string -> bool)
    ensures var c := UpdateContent(dir, es, condition);
      SortedBy(c.rows, RowBefore)
      && multiset(c.rows) == multiset(RowsOf(dir, Kept(es, condition)))
    ensures var sorted := SortBy(Kept(es, condition), EntryBefore);
      SortedBy(sorted, EntryBefore)
      && multiset(sorted) == multiset(Kept(es, condition))
      && UpdateContent(dir, es, condition).paths == PathsOf(dir, sorted)
  {
    ComparatorsAreStrict();
    SortBySorted(RowsOf(dir, Kept(es, condition)), RowBefore);
    SortBySorted(Kept(es, condition), EntryBefore);
  }

  /** Regular files always show a non-empty size, so the size column is empty exactly for
      directories. */
  predicate SizeShown(e: Entry) {
    !e.isDirectory ==> e.sizeText != ""
  }

  /** Then the row comparator on two rows agrees with the path comparator on their entries. */
  lemma RowOrderIsEntryOrder(dir: string)
    ensures CarriesOrder(e => RowOf(dir, e), SizeShown, EntryBefore, RowBefore)
  {
  }

  /** Row `i` and path `i` describe the same entry: the two sorts put the entries in the same order,
      so clicking a row opens that row's own path. */
  lemma RowsMatchPaths(dir: string, es: seq<Entry>, condition: string -> bool)
    requires forall e :: e in es ==> SizeShown(e)
    ensures var c := UpdateContent(dir, es, condition);
      forall i :: 0 <= i < |c.rows| ==> c.paths[i] == FileTypes.Join(dir, c.rows[i].name)
  {
    var kept := Kept(es, condition);
    assert All(SizeShown, kept) by {
      forall i | 0 <= i < |kept|
        ensures SizeShown(kept[i])
      {
        assert kept[i] in es;
      }
    }
    RowOrderIsEntryOrder(dir);
    SortMap(e => RowOf(dir, e), SizeShown, EntryBefore, RowBefore, kept);
  }
}

=== FILE: name_filter.dfy ===
/**
  The find box of the file explorer (src/gui/FileExplorer.cpp): a predicate over a file name built
  from the typed pattern. The pattern chooses one of four cases by whether it starts and whether it
  ends with '*'. An empty pattern reads `content[size - 1]` out of bounds, so it is excluded.
 */
module NameFilter {
  import opened Text

  /** The window the scan compares at start `i`: `str.substr(i, min(i + size - 1, str.size()))`.
      The second argument is a count, so the window is longer than the pattern for every `i > 0`
      unless it runs into the end of the name. */
  function Window(name: string, i: nat, size: nat): string
    requires i <= |name| && size > 0
  {
    Substr(name, i, Min(i + size - 1, |name|))
  }

  /** The scan loop: some start in `from .. |name| - 1` has a window equal to `target`. */
  function Scan(name: string, target: string, size: nat, from: nat): bool
    requires size > 0
    decreases |name| - from
  {
    if from >= |name| then false
    else Window(name, from, size) == target || Scan(name, target, size, from + 1)
  }

  /** The filter as written, case by case. */
  function Accepts(pattern: string, name: string): bool
    requires |pattern| > 0
  {
    var size := |pattern|;
    if pattern[0] != '*' && pattern[size - 1] != '*' then Substr(name, 0, size) == pattern
    else if pattern[0] != '*' then Substr(name, 0, size - 1) == Substr(pattern, 0, size - 1)
    else if pattern[size - 1] != '*' then Scan(name, Substr(pattern, 1, size), size, 0)
    else Scan(name, Substr(pattern, 1, size - 1), size, 0)
  }

  /** A window matches a target one shorter than the pattern only at the start of the name, or
      where the target ends exactly at the end of the name. */
  lemma WindowMatches(name: string, p: string, i: nat, size: nat)
    requires i <= |name| && size > 0 && |p| == size - 1
    ensures Window(name, i, size) == p <==>
      (i == 0 && IsPrefix(p, name)) || (0 < i && i == |name| - |p| && IsSuffix(p, name))
  {
  }

  lemma {:induction false} ScanMatches(name: string, p: string, size: nat, from: nat)
    requires size > 0 && |p| == size - 1
    ensures Scan(name, p, size, from) <==>
      (from == 0 && 0 < |name| && IsPrefix(p, name))
      || (0 < |p| && from <= |name| - |p| && |p| < |name| && IsSuffix(p, name))
    decreases |name| - from
  {
    if from < |name| {
      WindowMatches(name, p, from, size);
      ScanMatches(name, p, size, from + 1);
    }
  }

  /** No '*' at either end: exactly the names that start with the pattern. */
  lemma PlainPattern(pattern: string, name: string)
    requires |pattern| > 0 && pattern[0] != '*' && pattern[|pattern| - 1] != '*'
    ensures Accepts(pattern, name) <==> IsPrefix(pattern, name)
  {
  }

  /** Only a trailing '*': exactly the names that start with the pattern less its '*'. */
  lemma TrailingStar(pattern: string, name: string)
    requires |pattern| > 0 && pattern[0] != '*' && pattern[|pattern| - 1] == '*'
    ensures Accepts(pattern, name) <==> IsPrefix(pattern[..|pattern| - 1], name)
  {
  }

  /** A leading '*' (with or without a trailing one): the remainder of the pattern must start the
      name or end it, and in the second case the name must be longer than the remainder. */
  lemma LeadingStar(pattern: string, name: string)
    requires |pattern| > 0 && pattern[0] == '*'
    ensures var rest := pattern[1..];
      Accepts(pattern, name) <==>
        0 < |name| && (IsPrefix(rest, name) || (|rest| < |name| && IsSuffix(rest, name)))
  {
    var size := |pattern|;
    var rest := pattern[1..];
    assert Substr(pattern, 1, size) == rest && Substr(pattern, 1, size - 1) == rest;
    ScanMatches(name, rest, size, 0);
  }

  /** In particular a leading '*' keeps every name that starts with the rest of the pattern. */
  lemma LeadingStarKeepsPrefix(pattern: string, name: string)
    requires |pattern| > 1 && pattern[0] == '*' && IsPrefix(pattern[1..], name)
    ensures Accepts(pattern, name)
  {
    LeadingStar(pattern, name);
  }

  /** A lone "*" keeps every non-empty name. */
  lemma LoneStar(name: string)
    ensures Accepts("*", name) <==> 0 < |name|
  {
    LeadingStar("*", name);
  }

  /** As written, a pattern "*x*" compares windows against "x*", so on names without '*' it keeps
      nothing at all. */
  lemma BothStarsNeedLiteralStar(pattern: string, name: string)
    requires |pattern| > 1 && pattern[0] == '*' && pattern[|pattern| - 1] == '*'
    requires '*' !in name
    ensures !Accepts(pattern, name)
  {
    var rest := pattern[1..];
    LeadingStar(pattern, name);
    assert rest[|rest| - 1] == '*';
  }

  /** "*b*" rejects "abc", which contains "b". */
  lemma InnerPatternRejected()
    ensures !Accepts("*b*", "abc")
  {
    BothStarsNeedLiteralStar("*b*", "abc");
  }

  /** "*b" rejects "abc" too: the only windows that can equal "b" are the first and the last. */
  lemma LeadingStarMissesInterior()
    ensures !Accepts("*b", "abc")
  {
    LeadingStar("*b", "abc");
    assert "abc"[..1] == "a" && "abc"[2..] == "c";
  }

  /** `core` occurs somewhere in `name`. */
  predicate Contains(name: string, core: string) {
    exists i :: 0 <= i <= |name| - |core| && IsPrefix(core, name[i..])
  }

  /** The scan with windows as long as `core`: `str.substr(i, core.size()) == core`. */
  function ScanFor(name: string, core: string, from: nat): bool
    decreases |name| - from
  {
    if from >= |name| then false
    else Substr(name, from, |core|) == core || ScanFor(name, core, from + 1)
  }

  lemma {:induction false} ScanForContains(name: string, core: string, from: nat)
    requires from <= |name|
    ensures ScanFor(name, core, from) <==>
      from < |name| && exists i :: from <= i <= |name| - |core| && IsPrefix(core, name[i..])
    decreases |name| - from
  {
    if from < |name| {
      ScanForContains(name, core, from + 1);
      if Substr(name, from, |core|) == core {
        assert IsPrefix(core, name[from..]);
      }
      if exists i :: from <= i <= |name| - |core| && IsPrefix(core, name[i..]) {
        var i :| from <= i <= |name| - |core| && IsPrefix(core, name[i..]);
        if i == from {
          assert Substr(name, from, |core|) == name[from..][..|core|];
        } else if from + 1 == |name| {
          assert |core| == 0;
          assert Substr(name, from, |core|) == core;
        }
      }
    }
  }

  /** The filter with a '*' at the start meaning "anywhere": the scan compares windows as long as
      the text between the stars. Patterns without a leading '*' behave as written. */
  function AcceptsIntended(pattern: string, name: string): bool
    requires |pattern| > 0
  {
    var size := |pattern|;
    if pattern[0] != '*' then Accepts(pattern, name)
    else if pattern[size - 1] != '*' then ScanFor(name, pattern[1..], 0)
    else ScanFor(name, if size == 1 then "" else pattern[1..size - 1], 0)
  }

  /** The corrected filter keeps exactly the non-empty names containing the text between the stars. */
  lemma IntendedLeadingStar(pattern: string, name: string)
    requires |pattern| > 0 && pattern[0] == '*'
    ensures var size := |pattern|;
      var core := if size > 1 && pattern[size - 1] == '*' then pattern[1..size - 1] else pattern[1..];
      AcceptsIntended(pattern, name) <==> 0 < |name| && Contains(name, core)
  {
    var size := |pattern|;
    var core := if size > 1 && pattern[size - 1] == '*' then pattern[1..size - 1] else pattern[1..];
    assert size == 1 ==> core == "";
    ScanForContains(name, core, 0);
  }

  /** On the inputs above the corrected filter keeps the name. */
  lemma IntendedKeepsInterior()
    ensures AcceptsIntended("*b*", "abc") && AcceptsIntended("*b", "abc")
  {
    IntendedLeadingStar("*b*", "abc");
    IntendedLeadingStar("*b", "abc");
    assert IsPrefix("b", "abc"[1..]);
  }
}

=== FILE: sorting.dfy ===
/**
  `std::sort` under a caller's comparator, as insertion sort on sequences. The comparator is a
  strict order (irreflexive and transitive), which is all insertion needs; `std::sort` demands
  a strict weak ordering, which also makes incomparability transitive.
 */
module Sorting {
  ghost predicate Irreflexive<T(!new)>(before: (T, T) -> bool) {
    forall a :: !before(a, a)
  }

  ghost predicate Transitive<T(!new)>(before: (T, T) -> bool) {
    forall a, b, c :: before(a, b) && before(b, c) ==> before(a, c)
  }

  /** Neither of `a` and `b` is before the other. */
  ghost predicate Incomparable<T>(before: (T, T) -> bool, a: T, b: T) {
    !before(a, b) && !before(b, a)
  }

  /** Incomparability is transitive: with irreflexivity and transitivity, this makes `before` the
      strict weak ordering `std::sort` requires. */
  ghost predicate IncomparableTransitive<T(!new)>(before: (T, T) -> bool) {
    forall a, b, c :: Incomparable(before, a, b) && Incomparable(before, b, c) ==> Incomparable(before, a, c)
  }

  /** No element is strictly before one that precedes it. */
  ghost predicate SortedBy<T>(s: seq<T>, before: (T, T) -> bool) {
    forall i, j :: 0 <= i < j < |s| ==> !before(s[j], s[i])
  }

  /** `x` goes in front of the first element it is strictly before. */
  function Insert<T>(x: T, s: seq<T>, before: (T, T) -> bool): (r: seq<T>)
    ensures multiset(r) == multiset(s) + multiset{x}
    ensures |r| == |s| + 1
  {
    if s == [] || before(x, s[0]) then [x] + s
    else
      assert s == [s[0]] + s[1..];
      [s[0]] + Insert(x, s[1..], before)
  }

  function SortBy<T>(s: seq<T>, before: (T, T) -> bool): (r: seq<T>)
    ensures multiset(r) == multiset(s)
    ensures |r| == |s|
  {
    if s == [] then []
    else
      assert s == [s[0]] + s[1..];
      Insert(s[0], SortBy(s[1..], before), before)
  }

  lemma {:induction false} InsertSorted<T(!new)>(x: T, s: seq<T>, before: (T, T) -> bool)
    requires Irreflexive(before) && Transitive(before)
    requires SortedBy(s, before)
    ensures SortedBy(Insert(x, s, before), before)
    decreases |s|
  {
    var r := Insert(x, s, before);
    if s == [] {
    } else if before(x, s[0]) {
      assert r == [x] + s;
    } else {
      var t := Insert(x, s[1..], before);
      InsertSorted(x, s[1..], before);
      forall j | 0 <= j < |t|
        ensures !before(t[j], s[0])
      {
        assert t[j] in multiset(t);
        assert t[j] == x || t[j] in multiset(s[1..]);
        if t[j] != x {
          var k :| 0 <= k < |s[1..]| && s[1..][k] == t[j];
          assert s[k + 1] == t[j];
        }
      }
    }
  }

  /** The sorted sequence is in order and holds the same elements. */
  lemma {:induction false} SortBySorted<T(!new)>(s: seq<T>, before: (T, T) -> bool)
    requires Irreflexive(before) && Transitive(before)
    ensures SortedBy(SortBy(s, before), before)
    ensures multiset(SortBy(s, before)) == multiset(s)
    decreases |s|
  {
    if s != [] {
      SortBySorted(s[1..], before);
      InsertSorted(s[0], SortBy(s[1..], before), before);
    }
  }

  /** `f` applied to every element, in order. */
  function MapSeq<A, B>(f: A -> B, s: seq<A>): (r: seq<B>)
    ensures |r| == |s|
    ensures forall i :: 0 <= i < |s| ==> r[i] == f(s[i])
  {
    if s == [] then [] else [f(s[0])] + MapSeq(f, s[1..])
  }

  /** On the elements satisfying `ok`, `f` carries order `a` to order `b`. */
  ghost predicate CarriesOrder<A(!new), B>(f: A -> B, ok: A -> bool, a: (A, A) -> bool, b: (B, B) -> bool) {
    forall x, y :: ok(x) && ok(y) ==> b(f(x), f(y)) == a(x, y)
  }

  ghost predicate All<A>(ok: A -> bool, s: seq<A>) {
    forall i :: 0 <= i < |s| ==> ok(s[i])
  }

  lemma {:induction false} InsertMap<A(!new), B>(f: A -> B, ok: A -> bool, a: (A, A) -> bool, b: (B, B) -> bool, x: A, s: seq<A>)
    requires CarriesOrder(f, ok, a, b) && ok(x) && All(ok, s)
    ensures Insert(f(x), MapSeq(f, s), b) == MapSeq(f, Insert(x, s, a))
    decreases |s|
  {
    if s == [] {
      assert Insert(x, s, a) == [x];
    } else {
      var fs := MapSeq(f, s);
      assert fs[1..] == MapSeq(f, s[1..]);
      if a(x, s[0]) {
        assert ([x] + s)[1..] == s;
      } else {
        var t := Insert(x, s[1..], a);
        InsertMap(f, ok, a, b, x, s[1..]);
        assert Insert(f(x), fs, b) == [fs[0]] + Insert(f(x), fs[1..], b);
        assert ([s[0]] + t)[1..] == t;
      }
    }
  }

  lemma {:induction false} InsertAll<A>(ok: A -> bool, x: A, s: seq<A>, before: (A, A) -> bool)
    requires ok(x) && All(ok, s)
    ensures All(ok, Insert(x, s, before))
  {
    var r := Insert(x, s, before);
    forall i | 0 <= i < |r|
      ensures ok(r[i])
    {
      assert r[i] in multiset(r);
      if r[i] != x {
        assert r[i] in multiset(s);
        var k :| 0 <= k < |s| && s[k] == r[i];
      }
    }
  }

  /** Sorting commutes with a map that carries one order to the other: sorting the images gives
      the images of the sorted sequence. */
  lemma {:induction false} SortMap<A(!new), B>(f: A -> B, ok: A -> bool, a: (A, A) -> bool, b: (B, B) -> bool, s: seq<A>)
    requires CarriesOrder(f, ok, a, b) && All(ok, s)
    ensures SortBy(MapSeq(f, s), b) == MapSeq(f, SortBy(s, a))
    ensures All(ok, SortBy(s, a))
    decreases |s|
  {
    if s != [] {
      assert MapSeq(f, s)[1..] == MapSeq(f, s[1..]);
      SortMap(f, ok, a, b, s[1..]);
      InsertMap(f, ok, a, b, s[0], SortBy(s[1..], a));
      InsertAll(ok, s[0], SortBy(s[1..], a), a);
    }
  }
}

=== FILE: text.dfy ===
/** The `std::string` operations the file explorer relies on. */
module Text {
  import opened Wrappers

  predicate IsPrefix(p: string, s: string) {
    |p| <= |s| && s[..|p|] == p
  }

  predicate IsSuffix(p: string, s: string) {
    |p| <= |s| && s[|s| - |p|..] == p
  }

  function Min(a: nat, b: nat): nat {
    if a <= b then a else b
  }

  /** `s.substr(pos, count)`: the characters from `pos`, at most `count` of them; a `pos` past the
      end throws `std::out_of_range`, which the requires rules out. */
  function Substr(s: string, pos: nat, count: nat): (r: string)
    requires pos <= |s|
    ensures |r| == Min(count, |s| - pos)
    ensures r == s[pos..pos + |r|]
  {
    s[pos..pos + Min(count, |s| - pos)]
  }

  /** The last slot of `s` holding `c` (`rfind`). */
  function LastIndexOf(s: string, c: char): (k: Option<nat>)
    ensures k.Some? ==> k.value < |s| && s[k.value] == c && c !in s[k.value + 1..]
    ensures k.None? <==> c !in s
    decreases |s|
  {
    if s == [] then None
    else if s[|s| - 1] == c then Some(|s| - 1)
    else
      var k := LastIndexOf(s[..|s| - 1], c);
      assert s == s[..|s| - 1] + [s[|s| - 1]];
      k
  }

  /** Appending text without `c` does not move the last `c`. */
  lemma {:induction false} LastIndexOfAppend(s: string, t: string, c: char)
    requires c !in t
    ensures LastIndexOf(s + t, c) == LastIndexOf(s, c)
    decreases |t|
  {
    if t != [] {
      var t' := t[..|t| - 1];
      assert (s + t)[|s + t| - 1] == t[|t| - 1] != c;
      assert (s + t)[..|s + t| - 1] == s + t';
      assert c !in t' by {
        assert forall i :: 0 <= i < |t'| ==> t'[i] == t[i];
      }
      LastIndexOfAppend(s, t', c);
    } else {
      assert s + t == s;
    }
  }

  /** `std::string`'s `operator<`: lexicographic, characters compared by code. */
  predicate Less(a: string, b: string)
    decreases |a|
  {
    if a == [] then b != []
    else if b == [] then false
    else if a[0] != b[0] then a[0] < b[0]
    else Less(a[1..], b[1..])
  }

  lemma {:induction false} LessIrreflexive(a: string)
    ensures !Less(a, a)
    decreases |a|
  {
    if a != [] {
      LessIrreflexive(a[1..]);
    }
  }

  lemma {:induction false} LessTransitive(a: string, b: string, c: string)
    requires Less(a, b) && Less(b, c)
    ensures Less(a, c)
    decreases |a|
  {
    if a != [] && b != [] && c != [] && a[0] == b[0] && b[0] == c[0] {
      LessTransitive(a[1..], b[1..], c[1..]);
    }
  }

  lemma {:induction false} LessTotal(a: string, b: string)
    ensures a == b || Less(a, b) || Less(b, a)
    ensures !(Less(a, b) && Less(b, a))
    ensures a == b ==> !Less(a, b)
    decreases |a|
  {
    LessIrreflexive(a);
    if a != [] && b != [] && a[0] == b[0] {
      LessTotal(a[1..], b[1..]);
      if a[1..] == b[1..] {
        assert a == [a[0]] + a[1..] && b == [b[0]] + b[1..];
      }
    }
  }
}

=== FILE: vectors.dfy ===
/**
  The two-dimensional vector of the simulator, with exact real arithmetic standing in for `double`,
  and the transcendental functions the physics needs, kept uninterpreted: they are fields of a
  `Math` record that every operation using them receives, so nothing is assumed about their values.
 */
module Vectors {

  datatype Vector = Vector(x: real, y: real) {

    function Plus(other: Vector): Vector {
      Vector(x + other.x, y + other.y)
    }

    function Minus(other: Vector): Vector {
      Vector(x - other.x, y - other.y)
    }

    function Times(k: real): Vector {
      Vector(x * k, y * k)
    }
  }

  const Zero: Vector := Vector(0.0, 0.0)

  /** M_PI of <cmath>. */
  const Pi: real := 3.14159265358979323846

  function SquaredLength(v: Vector): real {
    v.x * v.x + v.y * v.y
  }

  /** The <cmath> functions essa calls; their values are left open. */
  datatype Math = Math(
    sqrt: real -> real,
    log10: real -> real,
    atan2: (real, real) -> real,
    cos: real -> real,
    sin: real -> real)

  /** Euclidean distance between two points, as `get_distance` computes it. */
  function Distance(m: Math, p: Vector, q: Vector): real {
    m.sqrt(SquaredLength(p.Minus(q)))
  }

  /** Euclidean length of a vector, as `Vector2::magnitude` computes it. */
  function Magnitude(m: Math, v: Vector): real {
    m.sqrt(SquaredLength(v))
  }

  /** Distance does not depend on which point is measured from. */
  lemma DistanceSymmetric(m: Math, p: Vector, q: Vector)
    ensures Distance(m, p, q) == Distance(m, q, p)
  {
    var d := p.Minus(q);
    var e := q.Minus(p);
    assert e.x == -d.x && e.y == -d.y;
    assert e.x * e.x == d.x * d.x;
    assert e.y * e.y == d.y * d.y;
    assert SquaredLength(e) == SquaredLength(d);
  }
}

=== FILE: worlds.dfy ===
/**
  `World` (src/World.cpp): the ordered list of bodies with a cached most massive one, the day
  counter, the signed multi-step update with its two phases, lookup by name, the fresh clone used
  for forward simulation and the seconds-per-tick attribute.

  The bodies are of an abstract type `B`. What `World` needs of them is passed in: their gravity
  factor, their name, their clone, and the two per-body steps `update_forces(reverse)` and
  `update(speed)`, each of which sees the list as it stands when the body's turn comes.
 */
module Worlds {
  import opened Wrappers

  /** The part of the date that `World` drives: the day counter, next to the starting year. */
  datatype Date = Date(year: real, dayCount: int)

  /** The date of a freshly constructed `World`: year 1990.3, no days counted yet. */
  const StartDate: Date := Date(1990.3, 0)

  /** An identifier for the simulation view a world is attached to. */
  type ViewId = nat

  datatype World<B> = World(
    objects: seq<B>,
    mostMassive: Option<nat>,   // slot of the cached most massive object
    date: Date,
    secondsPerTick: int,
    view: Option<ViewId>)

  /** The per-body operations `World` calls. */
  datatype BodyOps<!B> = BodyOps(
    gravity: B -> real,                    // gravity_factor()
    name: B -> string,                     // m_name
    clone: B -> B,                         // clone_for_forward_simulation
    forces: (seq<B>, nat, bool) -> B,      // update_forces(reverse) of the object in a slot
    motion: (seq<B>, nat, real) -> B)      // update(speed) of the object in a slot

  /** A default-constructed `World`; the default of seconds-per-tick is the parameter. */
  function NewWorld<B>(secondsPerTick: int): (w: World<B>)
    ensures w.objects == [] && w.mostMassive.None? && w.date == StartDate && w.view.None?
  {
    World([], None, StartDate, secondsPerTick, None)
  }

  predicate CacheInRange<B>(w: World<B>) {
    w.mostMassive.Some? ==> w.mostMassive.value < |w.objects|
  }

  /** `k` is the first slot whose gravity factor no other slot exceeds. */
  ghost predicate IsFirstHeaviest<B>(objects: seq<B>, k: nat, gravity: B -> real) {
    && k < |objects|
    && (forall j :: 0 <= j < |objects| ==> gravity(objects[j]) <= gravity(objects[k]))
    && (forall j :: 0 <= j < k ==> gravity(objects[j]) < gravity(objects[k]))
  }

  /** The cache designates the first heaviest object, and is unset exactly when the world is empty. */
  ghost predicate CachesHeaviest<B>(w: World<B>, gravity: B -> real) {
    match w.mostMassive
    case None => w.objects == []
    case Some(k) => IsFirstHeaviest(w.objects, k, gravity)
  }

  /** `World::add_object`: append, and take over the cache only when strictly heavier. */
  function AddObject<B>(w: World<B>, o: B, gravity: B -> real): (r: World<B>)
    requires CacheInRange(w)
    ensures r.objects == w.objects + [o]
    ensures r.mostMassive != w.mostMassive <==>
      (w.mostMassive.None? || gravity(w.objects[w.mostMassive.value]) < gravity(o))
    ensures r.mostMassive != w.mostMassive ==> r.mostMassive == Some(|w.objects|)
    ensures CacheInRange(r)
    ensures r.(objects := w.objects, mostMassive := w.mostMassive) == w
  {
    var replace := w.mostMassive.None? || gravity(w.objects[w.mostMassive.value]) < gravity(o);
    w.(objects := w.objects + [o], mostMassive := if replace then Some(|w.objects|) else w.mostMassive)
  }

  /** Adding an object keeps the cache on the first heaviest object: ties keep the earlier one. */
  lemma AddObjectKeepsHeaviest<B>(w: World<B>, o: B, gravity: B -> real)
    requires CacheInRange(w) && CachesHeaviest(w, gravity)
    ensures CachesHeaviest(AddObject(w, o, gravity), gravity)
  {
    var r := AddObject(w, o, gravity);
    match w.mostMassive
    case None =>
      assert r.objects == [o];
    case Some(k) =>
      if r.mostMassive == w.mostMassive {
        assert forall j :: 0 <= j < |w.objects| ==> r.objects[j] == w.objects[j];
        assert r.objects[|w.objects|] == o;
      } else {
        assert forall j :: 0 <= j < |w.objects| ==> r.objects[j] == w.objects[j];
      }
  }

  /** Adding objects one after the other, in order. */
  function AddAll<B>(w: World<B>, os: seq<B>, gravity: B -> real): (r: World<B>)
    requires CacheInRange(w)
    ensures r.objects == w.objects + os && CacheInRange(r)
    ensures r.(objects := w.objects, mostMassive := w.mostMassive) == w
    decreases |os|
  {
    if os == [] then w
    else
      var r := AddAll(AddObject(w, os[0], gravity), os[1..], gravity);
      assert w.objects + [os[0]] + os[1..] == w.objects + os;
      r
  }

  lemma {:induction false} AddAllKeepsHeaviest<B>(w: World<B>, os: seq<B>, gravity: B -> real)
    requires CacheInRange(w) && CachesHeaviest(w, gravity)
    ensures CachesHeaviest(AddAll(w, os, gravity), gravity)
    decreases |os|
  {
    if os != [] {
      AddObjectKeepsHeaviest(w, os[0], gravity);
      AddAllKeepsHeaviest(AddObject(w, os[0], gravity), os[1..], gravity);
    }
  }

  /** The first heaviest slot is unique. */
  lemma FirstHeaviestUnique<B>(objects: seq<B>, k1: nat, k2: nat, gravity: B -> real)
    requires IsFirstHeaviest(objects, k1, gravity) && IsFirstHeaviest(objects, k2, gravity)
    ensures k1 == k2
  {
    assert gravity(objects[k1]) == gravity(objects[k2]);
  }

  /** `World::clone_for_forward_simulation`: a default world sharing the view, into which a clone
      of every object is added in order. */
  function CloneForForwardSimulation<B>(w: World<B>, ops: BodyOps<B>, freshSecondsPerTick: int): (r: World<B>)
    ensures |r.objects| == |w.objects|
    ensures forall i :: 0 <= i < |w.objects| ==> r.objects[i] == ops.clone(w.objects[i])
    ensures r.date == StartDate && r.view == w.view && r.secondsPerTick == freshSecondsPerTick
  {
    var blank: World<B> := NewWorld(freshSecondsPerTick);
    var empty := blank.(view := w.view);
    AddAll(empty, seq(|w.objects|, i requires 0 <= i < |w.objects| => ops.clone(w.objects[i])), ops.gravity)
  }

  /** The clone's cache is recomputed by the `add_object` rule; when cloning keeps every gravity
      factor, it designates the same slot as the cache of the world cloned. */
  lemma CloneRecomputesHeaviest<B>(w: World<B>, ops: BodyOps<B>, freshSecondsPerTick: int)
    ensures CachesHeaviest(CloneForForwardSimulation(w, ops, freshSecondsPerTick), ops.gravity)
    ensures CachesHeaviest(w, ops.gravity)
         && (forall i :: 0 <= i < |w.objects| ==> ops.gravity(ops.clone(w.objects[i])) == ops.gravity(w.objects[i]))
         ==> CloneForForwardSimulation(w, ops, freshSecondsPerTick).mostMassive == w.mostMassive
  {
    var blank: World<B> := NewWorld(freshSecondsPerTick);
    var empty := blank.(view := w.view);
    var cs := seq(|w.objects|, i requires 0 <= i < |w.objects| => ops.clone(w.objects[i]));
    AddAllKeepsHeaviest(empty, cs, ops.gravity);
    var r := CloneForForwardSimulation(w, ops, freshSecondsPerTick);
    if CachesHeaviest(w, ops.gravity)
       && (forall i :: 0 <= i < |w.objects| ==> ops.gravity(ops.clone(w.objects[i])) == ops.gravity(w.objects[i]))
    {
      match w.mostMassive
      case None =>
      case Some(k) =>
        assert IsFirstHeaviest(r.objects, k, ops.gravity);
        FirstHeaviestUnique(r.objects, k, r.mostMassive.value, ops.gravity);
    }
  }

  /** Which of the two per-body calls of a tick, with its argument. */
  datatype Phase = Forces(reverse: bool) | Motion(speed: real)

  /** One per-body call made during an update: the object's slot and the call. */
  datatype Call = Call(slot: nat, phase: Phase)

  function Apply<B>(ops: BodyOps<B>, objects: seq<B>, i: nat, phase: Phase): B {
    match phase
    case Forces(reverse) => ops.forces(objects, i, reverse)
    case Motion(speed) => ops.motion(objects, i, speed)
  }

  /** One `for (auto& p : m_object_list)` pass from slot `i` on: each object in turn is replaced
      by the result of its call, and the calls made are logged. Slot `i` gets the result of a call
      that sees every slot from `i` on still untouched by the pass, and the slots before `i` are
      left alone. */
  function Sweep<B>(ops: BodyOps<B>, objects: seq<B>, i: nat, phase: Phase): (r: (seq<B>, seq<Call>))
    requires i <= |objects|
    ensures |r.0| == |objects|
    ensures |r.1| == |objects| - i
    ensures forall j :: 0 <= j < |r.1| ==> r.1[j] == Call(i + j, phase)
    ensures forall j :: 0 <= j < i ==> r.0[j] == objects[j]
    ensures i < |objects| ==> r.0[i] == Apply(ops, objects, i, phase)
    ensures forall j :: i <= j < |objects| ==> r.0[j] == Apply(ops, r.0[..j] + objects[j..], j, phase)
    decreases |objects| - i
  {
    if i == |objects| then (objects, [])
    else
      var next := objects[i := Apply(ops, objects, i, phase)];
      var rest := Sweep(ops, next, i + 1, phase);
      assert rest.0[..i] + objects[i..] == objects;
      assert forall j :: i < j < |objects| ==> next[j..] == objects[j..];
      (rest.0, [Call(i, phase)] + rest.1)
  }

  /** The calls of one tick over `n` objects: every object's forces, then every object's motion. */
  function TickCalls(n: nat, reverse: bool, speed: real): (cs: seq<Call>)
    ensures |cs| == 2 * n
  {
    seq(n, i requires 0 <= i => Call(i, Forces(reverse))) + seq(n, i requires 0 <= i => Call(i, Motion(speed)))
  }

  /** One iteration of `World::update`'s loop over the objects: both phases. */
  function Tick<B>(ops: BodyOps<B>, objects: seq<B>, reverse: bool, speed: real): (r: (seq<B>, seq<Call>))
    ensures |r.0| == |objects|
    ensures r.1 == TickCalls(|objects|, reverse, speed)
  {
    var a := Sweep(ops, objects, 0, Forces(reverse));
    var b := Sweep(ops, a.0, 0, Motion(speed));
    assert a.1 == seq(|objects|, i requires 0 <= i => Call(i, Forces(reverse)));
    assert b.1 == seq(|objects|, i requires 0 <= i => Call(i, Motion(speed)));
    (b.0, a.1 + b.1)
  }

  /** The state half of the two phases: every forces call sees the forces results of the slots
      before it and the untouched objects from its own slot on; every motion call sees the motion
      results before it and the forces results from its own slot on. */
  lemma TickSeesForces<B>(ops: BodyOps<B>, objects: seq<B>, reverse: bool, speed: real)
    ensures var forced := Sweep(ops, objects, 0, Forces(reverse)).0;
      var moved := Tick(ops, objects, reverse, speed).0;
      && (forall j :: 0 <= j < |objects| ==> forced[j] == ops.forces(forced[..j] + objects[j..], j, reverse))
      && (forall j :: 0 <= j < |objects| ==> moved[j] == ops.motion(moved[..j] + forced[j..], j, speed))
  {
  }

  /** Within a tick every object receives its forces call before any object receives its motion
      call, each object receives exactly one of each, and the flag is the one given. */
  lemma TickCallsPhased(n: nat, reverse: bool, speed: real)
    ensures var cs := TickCalls(n, reverse, speed);
      && (forall a, b :: 0 <= a < |cs| && 0 <= b < |cs| && cs[a].phase.Motion? && cs[b].phase.Forces? ==> b < a)
      && (forall i :: 0 <= i < n ==> cs[i] == Call(i, Forces(reverse)) && cs[n + i] == Call(i, Motion(speed)))
  {
  }

  /** The objects after `k` ticks. */
  function Ticks<B>(ops: BodyOps<B>, objects: seq<B>, k: nat, reverse: bool, speed: real): (r: seq<B>)
    ensures |r| == |objects|
  {
    if k == 0 then objects else Tick(ops, Ticks(ops, objects, k - 1, reverse, speed), reverse, speed).0
  }

  /** `k` copies of a call sequence, one after the other. */
  function Repeat(cs: seq<Call>, k: nat): (r: seq<Call>)
    ensures |r| == k * |cs|
  {
    if k == 0 then [] else Repeat(cs, k - 1) + cs
  }

  /** `World::update(steps)`: |steps| ticks, each moving the day counter one day forward (or back
      when `steps` is negative) before running the two phases. `speed` is the speed of the attached
      view, which every motion call reads, so a world with bodies must have a view. */
  method Update<B>(w: World<B>, steps: int, speed: real, ops: BodyOps<B>) returns (r: World<B>, calls: seq<Call>)
    requires steps != 0
    requires w.view.Some? || w.objects == []
    ensures r.date.dayCount == w.date.dayCount + steps
    ensures r.(objects := w.objects, date := w.date) == w && r.date.year == w.date.year
    ensures var n := if steps < 0 then -steps else steps;
      && r.objects == Ticks(ops, w.objects, n, steps < 0, speed)
      && calls == Repeat(TickCalls(|w.objects|, steps < 0, speed), n)
    ensures forall c :: c in calls && c.phase.Forces? ==> c.phase.reverse == (steps < 0)
  {
    var reverse := steps < 0;
    var n := if reverse then -steps else steps;
    r, calls := w, [];
    var i := 0;
    while i < n
      invariant i <= n
      invariant r.date.dayCount == w.date.dayCount + (if reverse then -i else i)
      invariant r.(objects := w.objects, date := w.date) == w && r.date.year == w.date.year
      invariant r.objects == Ticks(ops, w.objects, i, reverse, speed)
      invariant calls == Repeat(TickCalls(|w.objects|, reverse, speed), i)
    {
      var day := if !reverse then r.date.dayCount + 1 else r.date.dayCount - 1;
      r := r.(date := r.date.(dayCount := day));
      var next := Tick(ops, r.objects, reverse, speed);
      r := r.(objects := next.0);
      calls := calls + next.1;
      i := i + 1;
    }
    RepeatKeepsFlag(TickCalls(|w.objects|, reverse, speed), n, reverse);
  }

  lemma {:induction false} RepeatKeepsFlag(cs: seq<Call>, k: nat, reverse: bool)
    requires forall c :: c in cs && c.phase.Forces? ==> c.phase.reverse == reverse
    ensures forall c :: c in Repeat(cs, k) && c.phase.Forces? ==> c.phase.reverse == reverse
  {
    if k > 0 {
      RepeatKeepsFlag(cs, k - 1, reverse);
    }
  }

  /** `World::get_object_by_name`: the first object in list order with that name. */
  method GetObjectByName<B>(w: World<B>, name: string, ops: BodyOps<B>) returns (found: Option<nat>)
    ensures found.Some? ==> found.value < |w.objects| && ops.name(w.objects[found.value]) == name
    ensures found.Some? ==> forall j :: 0 <= j < found.value ==> ops.name(w.objects[j]) != name
    ensures found.None? <==> forall j :: 0 <= j < |w.objects| ==> ops.name(w.objects[j]) != name
  {
    var i := 0;
    while i < |w.objects|
      invariant i <= |w.objects|
      invariant forall j :: 0 <= j < i ==> ops.name(w.objects[j]) != name
    {
      if ops.name(w.objects[i]) == name {
        return Some(i);
      }
      i := i + 1;
    }
    return None;
  }

  /** The getter of the `simulation_seconds_per_tick` attribute. */
  function SimulationSecondsPerTick<B>(w: World<B>): int {
    w.secondsPerTick
  }

  /** The setter of the `simulation_seconds_per_tick` attribute: it always reports success, a later
      get yields the value set, and nothing else changes. */
  function SetSimulationSecondsPerTick<B>(w: World<B>, value: int): (r: (bool, World<B>))
    ensures r.0
    ensures SimulationSecondsPerTick(r.1) == value
    ensures r.1.(secondsPerTick := w.secondsPerTick) == w
  {
    (true, w.(secondsPerTick := value))
  }
}

=== FILE: wrappers.dfy ===
/** The optional value used wherever essa returns a null pointer or "nothing found". */
module Wrappers {

  datatype Option<+T> = None | Some(value: T)
}
